=== FILE: README.md ===
# Mailbox bookkeeping of a small IMAP/SMTP mail server, in Dafny

The server keeps each user's mail in maildir directories. Its IMAP side
(`IMAPserver.py`) and its SMTP side (`smtpserver.py`) share those directories.
This project models the bookkeeping parts of the two sides as pure functions
over immutable values. It covers:

- the user's account (`IMAPUserAccount`): mailbox path canonicalisation, the
  cache of opened mailboxes, create, select, delete, rename and
  subscriptions;
- one opened mailbox (`IMAPMailbox`):
  - the metadata record and its UID assignment;
  - the counts;
  - resolving client message sets in sequence mode and in UID mode;
  - fetch, store of flags, expunge and destroy;
- `passwordFileToDict`, which reads the credentials file;
- the SMTP line buffer `MaildirMessageWriter`, which turns the received
  lines into the bytes appended to the inbox;
- the recipient rule of `LocalDelivery`.

How things are represented:

- **Message store.** A mailbox's message store is the sequence of its
  message file names in listing order.
- **Metadata.** The metadata record holds:
  - the flags map, from UID to flag list;
  - the UID validity;
  - the UIDs map, from file name to UID;
  - the next UID;
  - the optional subscription key.

  Next to the in-memory record, a mailbox keeps the content of its metadata
  file. That content changes only where the code calls `saveMetadata`.
- **Account.** An account is the set of mail directories on disk, a map from
  name to message files and the metadata pickle inside the directory, plus
  the cache of opened mailboxes. The cache holds the object every mailbox
  operation changes in place. `ImapAccount.Commit` writes an operation's
  result back into the cache. When the operation wrote the mailbox's metadata
  file, the commit also writes what it saved into the directory of that name.
  A mailbox counts its writes so that an operation that saved nothing leaves
  the directory's file alone. The metadata file therefore survives a rename of
  the directory.
- **Errors.** A Python exception becomes an `Err` value naming it.

The code is modelled as written, including where it evidently misbehaves.
Each such case is an explicit outcome of the model:

- `getUIDNext` reads an attribute that does not exist, so it always raises.
- `getUnseenCount` takes `len` of a `filter` object, so under Python 3 it
  always raises.
- UID-mode resolution of a set whose end is already set returns None.
- UID-mode `store` never reaches the flag loop.
- Sequence number 0 passes the bound check and names the last message. On an
  empty mailbox it raises, and "1:*" on an empty mailbox closes to the range
  0:1, so it raises too.
- In modes 1 and -1, `store` edits only the list of the last resolved message.
  With no message resolved and a flag requested, it reads an unbound variable.
- Only removal of flags is reported and saved.

The modules follow the program:

| module | what it holds |
|---|---|
| `ImapAccount` | `account.dfy`: the account |
| `ImapMailbox` | `mailbox.dfy`: the mailbox |
| `MailboxMetadata` | `metadata.dfy`: `initMetadata` and the UID assignment loop |
| `MessageSets` | `message_sets.dfy`: client message sets and the insertion-ordered dictionaries that resolution builds |
| `FlagLists` | `flag_lists.dfy`: the two list edits of `store` |
| `Sorting` | `sorting.dfy`: `list.sort` and `list.index` on UIDs |
| `Paths` | `paths.dfy`: canonicalisation |
| `PyStrings` | `strings.dfy`: `split`, `join` and `count` |
| `Passwords` | `passwords.dfy`: the credentials file |
| `Utf8` | `utf8.dfy`: encoding and strict decoding, following RFC 3629 |
| `Smtp` | `smtp.dfy`: SMTP delivery |
| `Errors` | `errors.dfy`: the exceptions, `Option` and `Result` |

Message sets follow twisted's `imap4.MessageSet`:

- a list of ranges whose ends are numbers or "*";
- a `last` value that "*" stands for once set;
- iteration that yields each range's numbers in ascending order.

The twisted library is not part of this model. This behaviour generalises
its own: twisted sorts and merges the ranges of a set, and on sorted,
non-overlapping ranges the two iterations agree.

## Model

| member | source | states |
|---|---|---|
| `Paths.Lower` | IMAPserver.py:30 | The lower-cased text has the same length and lower-cases each character in place. |
| `Paths.Canonical` | IMAPserver.py:28-34 | Every dot-component after the first is unchanged. The first becomes "Inbox" exactly when it reads "inbox" in some case, and is kept otherwise. |
| `Paths.CanonicalRewritesOnlyFirst` | IMAPserver.py:28-34 | The canonical path is the original path with only its first component replaced by "Inbox" when that component reads "inbox". Any other path comes back unchanged. |
| `Paths.CanonicalIdempotent` | IMAPserver.py:28-34 | Canonicalising a canonical path changes nothing. |
| `Paths.InboxSpellingsAgree` | IMAPserver.py:28-34 | Two paths that both start with some spelling of "inbox" and agree after it have one canonical key. |
| `PyStrings.Split` | IMAPserver.py:28 | A split has at least one part, and no part contains the separator. |
| `PyStrings.JoinSplit` | IMAPserver.py:28-34 | Joining the parts of a split on the same separator gives the text back. |
| `PyStrings.SplitJoin` | IMAPserver.py:28-34 | Splitting a join of separator-free parts gives the parts back. |
| `PyStrings.SplitCount` | IMAPserver.py:453-455 | A split yields one part more than the text holds separators. |
| `ImapAccount.Commit` | IMAPserver.py:50-52 | The cache holds the given mailbox under the name. If the mailbox wrote its metadata file since the cache last held it, the directory of that name holds its messages and what the mailbox last saved; if it wrote nothing, that directory is untouched, even when another directory has since been renamed to the name. Every other directory and cache entry is unchanged. |
| `ImapAccount.CommitThenLookup` | IMAPserver.py:36-52 | After a commit, a lookup of the same name returns the committed mailbox and changes nothing. |
| `ImapAccount.GetMailbox` | IMAPserver.py:21-52 | The lookup fails with KeyError exactly when the canonical name is neither cached nor a directory and creation was not asked for. Otherwise the mailbox is cached under the canonical name, and every other directory is unchanged. A cached mailbox is returned as it is and the account is unchanged. An existing directory is opened. Its files stay, and its metadata file afterwards is what opening saved (written when it had messages and no file). A missing directory is created empty and its mailbox is opened from it, with no metadata file. |
| `ImapAccount.LookupIgnoresInboxSpelling` | IMAPserver.py:28-36 | Two paths with the same canonical form give identical lookups. |
| `ImapAccount.LookupIsCached` | IMAPserver.py:36-52 | Looking up the same path again returns the first lookup's mailbox and account, whatever the creation flag and the drawn validity. Storage is not consulted. |
| `ImapAccount.Select` | IMAPserver.py:121-125 | Select fails with KeyError exactly when the mailbox is neither cached nor on disk. On success the returned mailbox is the one the cache holds under the canonical name, and every other cache entry is unchanged. No directory is added or removed, and every other directory is unchanged. A cached mailbox is returned with the account unchanged. Otherwise the directory is opened, keeps its files, and its metadata file afterwards is what opening saved. |
| `ImapAccount.Create` | IMAPserver.py:67-71 | Afterwards the canonical name is cached, and a name that was not cached exists on disk. The cached names are the old ones plus that name. No directory is removed and at most that one is added. Every other directory and every cached mailbox is unchanged. An already cached name leaves the account unchanged. An existing directory is opened, keeps its files, and its metadata file afterwards is what opening saved. A missing one is created empty and its mailbox is opened from it. |
| `ImapAccount.CreateThenSelect` | IMAPserver.py:61-71 | After create, select of the same path succeeds and changes nothing. |
| `ImapAccount.Delete` | IMAPserver.py:73-77 | Deleting a mailbox is always refused with "Permission denied". |
| `ImapAccount.Rename` | IMAPserver.py:79-88 | Rename fails with OSError exactly when the source is missing or a different target exists. The cache is never touched and names are not canonicalised. On success the source's content sits under the new name and every other directory keeps its content. |
| `ImapAccount.RenameBack` | IMAPserver.py:79-88 | A rename followed by the reverse rename restores the account. |
| `ImapAccount.SetSubscribed` | IMAPserver.py:94-98 | Fails exactly when no directory has the canonical name: KeyError, with the account unchanged, when the mailbox is not cached; OSError from the save when the directory was renamed away, and then the cached mailbox keeps the new key in memory. Otherwise it returns True, the looked-up mailbox is cached with only its subscription key changed, and its record is saved. The metadata file in its directory holds the new record. No name is cached beyond that one, and every other directory and cached mailbox is unchanged. |
| `ImapAccount.SetInPlace` | IMAPserver.py:96 | The cached mailbox of the name has its subscription key set and nothing saved; the directories and every other cached mailbox are unchanged. |
| `ImapAccount.Subscribe` | IMAPserver.py:90-100 | As SetSubscribed with True: fails exactly when no directory has the name, and a failed save still leaves True on the cached mailbox. Otherwise it returns True, only the subscription key of the looked-up mailbox changes, to True, and the record is saved into its directory's metadata file. No other name is cached and nothing else changes. |
| `ImapAccount.Unsubscribe` | IMAPserver.py:102-113 | As SetSubscribed with False: fails exactly when no directory has the name, and a failed save still leaves False on the cached mailbox. Otherwise it returns True, only the subscription key changes, to False, and the record is saved into the directory's metadata file. No other name is cached and nothing else changes. |
| `ImapAccount.IsSubscribed` | IMAPserver.py:115-119 | The answer is True exactly when the subscription key is present and True; an absent key reads as False. The account afterwards is the lookup's. |
| `ImapAccount.SubscriptionRoundTrip` | IMAPserver.py:90-119 | After subscribing or unsubscribing, asking returns the value that was set and changes nothing further. |
| `ImapAccount.FailedSaveKeepsKey` | IMAPserver.py:94-98 | When the save raises OSError because the directory was renamed away, asking afterwards still answers the value being set. |
| `ImapAccount.NewMailboxUnsubscribed` | IMAPserver.py:115-119 | A newly created mailbox without a metadata file reads as unsubscribed. |
| `ImapAccount.ReopenAfterRename` | IMAPserver.py:79-88 | A committed mailbox that wrote its metadata file, and whose directory is then renamed to an uncached name, is reopened under the new name with exactly the record it last saved, and the directory's messages. |
| `ImapAccount.SubscribeSurvivesRename` | IMAPserver.py:90-100 | Subscribing, renaming the directory, then asking under the new name answers True. |
| `ImapAccount.ValiditySurvivesRename` | IMAPserver.py:141-156 | A directory with messages and no metadata file, selected and then renamed, reopens with the same record, including the UID validity drawn the first time. |
| `ImapAccount.CommittedChangesReachSubscribe` | IMAPserver.py:94-98 | After a commit, (un)subscribing keeps the committed mailbox's store and record and changes only the subscription key. |
| `ImapAccount.UnsavedCommitKeepsRenamedIn` | IMAPserver.py:79-88 | With a cached mailbox's directory renamed away and another directory renamed to its name, committing that mailbox without a save leaves the other directory's own record in place. |
| `MailboxMetadata.InitMetadata` | IMAPserver.py:158-178 | Each key already present keeps its value. Each missing key gets its default: no flags, a validity in [1000000, 9999999], no UIDs, next UID 1. |
| `MailboxMetadata.InitEstablishesInvariant` | IMAPserver.py:158-178 | A record initialised from an empty dictionary has next UID 1 and satisfies the UID invariant: UIDs positive, below the counter and pairwise distinct. |
| `MailboxMetadata.InitKeepsCompleteRecord` | IMAPserver.py:158-178 | Initialising a record that has every key changes nothing. |
| `MailboxMetadata.NewNamesSpec` | IMAPserver.py:191-195 | The files the loop assigns are exactly the store's files without a UID, each once. |
| `MailboxMetadata.AssignUids` | IMAPserver.py:191-199 | Afterwards every file of the store has a UID. Existing UIDs are unchanged. No other names are added. New UIDs lie between the old and the new counter, and the counter never goes down. |
| `MailboxMetadata.AssignInStoreOrder` | IMAPserver.py:191-199 | New files receive next, next+1, … in store order, and the counter rises by exactly their number. |
| `MailboxMetadata.AssignPreservesInvariant` | IMAPserver.py:191-199 | Assignment keeps UIDs positive, below the counter and injective. |
| `MailboxMetadata.AssignTwiceIsOnce` | IMAPserver.py:186-201 | A second assignment over the same store changes nothing, so a file's UID is stable. |
| `MailboxMetadata.AssignKnownIsIdentity` | IMAPserver.py:191-195 | When every file already has a UID, assignment changes nothing. |
| `ImapMailbox.AssignMissingUids` | IMAPserver.py:186-201 | Afterwards every message has a UID, old UIDs are kept and the store, flags, validity and subscription are unchanged. The messages without a UID get next, next+1, … in store order, and the counter rises by their number. If every message already had a UID, nothing changes. Otherwise the file is written and holds the final record. |
| `ImapMailbox.AssignMissingKeepsInvariant` | IMAPserver.py:186-201 | `_assignUIDs` preserves the UID invariant. |
| `ImapMailbox.Save` | IMAPserver.py:180-184 | The file content becomes the in-memory record and the file counts one more write; the messages and the record are unchanged. |
| `ImapMailbox.Open` | IMAPserver.py:141-156 | An existing metadata file is taken as the record and as the file content, and nothing is written. Without one, the fresh record has the drawn validity, no subscription key and no flags. The messages are numbered 1, 2, … in store order, the next UID is one more than their number, and no other name has a UID. The file is written, with that record, exactly when the directory holds messages. |
| `ImapMailbox.GetUid` | IMAPserver.py:235-239 | Fails with IndexError exactly when the sequence number indexes no message, counting from the end for numbers ≤ 0. Otherwise it returns the UID the message holds afterwards. UIDs are assigned only when that message had none. |
| `ImapMailbox.MessageCount` | IMAPserver.py:223-224 | Every sequence number from 1 to the count names the message at that place in the store, and the number after the count names none. |
| `ImapMailbox.RecentCount` | IMAPserver.py:226-227 | No message is ever reported as recent. |
| `ImapMailbox.IsWriteable` | IMAPserver.py:229-230 | The mailbox always reports itself read-only. |
| `ImapMailbox.UidValidity` | IMAPserver.py:232-233 | The validity reported is the record's. |
| `ImapMailbox.UidNext` | IMAPserver.py:241-242 | Always raises AttributeError: the attribute it reads is never set. |
| `ImapMailbox.UnseenCount` | IMAPserver.py:209-221 | Always raises TypeError, since `len` of a filter object fails. |
| `ImapMailbox.Destroy` | IMAPserver.py:372-378 | Destroying a mailbox is always refused. |
| `ImapMailbox.CollectSeq` | IMAPserver.py:248-252 | The loop raises exactly when 0 is requested on an empty store. Otherwise the keys gained are exactly the requested numbers from 0 to the count. Keys stay distinct, and every entry names the message its number indexes. |
| `ImapMailbox.CollectSeqOrder` | IMAPserver.py:248-252 | The keys the loop adds come after the existing ones, in the order the numbers first occur, and only numbers from 0 to the count not already keyed are added. |
| `ImapMailbox.PutKeySeq` | IMAPserver.py:251 | Assigning a new key appends it to the key order; assigning an existing key leaves the order unchanged. |
| `ImapMailbox.CloseAtCount` | IMAPserver.py:245-246 | An unset end, None or 0, is closed at the message count. A set end is kept. |
| `ImapMailbox.SeqResolve` | IMAPserver.py:244-252 | Raises exactly when the mailbox is empty and 0 is among the closed set's numbers. Otherwise the keys are distinct and are exactly the requested numbers from 0 to the count, in the order the set's iteration first yields them. Larger numbers are dropped, never an error. Each entry names the message its number indexes. An empty mailbox yields no entries. |
| `ImapMailbox.SeqKeyNamesEntry` | IMAPserver.py:249-251 | Every resolved key lies in 0..count, and a key k ≥ 1 names store entry k−1. |
| `ImapMailbox.SingleRangeInOrder` | IMAPserver.py:244-252 | A single range a:b inside the mailbox resolves to the keys a, a+1, …, b in that order, so its last entry, the one store modes 1 and −1 edit, is b. |
| `ImapMailbox.SequenceDensity` | IMAPserver.py:244-252 | On a nonempty mailbox "1:*" resolves to exactly the keys 1..count. On an empty one it raises IndexError. |
| `ImapMailbox.StoreUids` | IMAPserver.py:268-272 | One UID per message, in store order, each the UID that message holds. |
| `ImapMailbox.CollectUidShape` | IMAPserver.py:277-286 | The UID loop keeps keys distinct, and every entry it adds names the message at its rank's position in the store. |
| `ImapMailbox.CollectUidKeys` | IMAPserver.py:279-285 | The loop keys rank k exactly when some requested UID held by a message has rank k among the sorted UIDs. |
| `ImapMailbox.UidResolve` | IMAPserver.py:255-286 | Returns a dictionary exactly when the end is unset. Then UIDs were assigned first, keys are distinct, every key lies in 1..count and names the message at that position. With the end set it returns None and changes nothing. |
| `ImapMailbox.UidResolveKeys` | IMAPserver.py:262-285 | Rank k is a key exactly when some UID in the set, closed at the counter as it stood before assignment, is held by a message and sits at position k−1 of the sorted UIDs. |
| `ImapMailbox.FetchEntries` | IMAPserver.py:297-300 | One item per resolved entry, in order. Each item carries the entry's number and file, the UID that file holds afterwards, and that UID's flags in the original record, an empty list if none. Store, flags and existing UIDs are unchanged. |
| `ImapMailbox.Fetch` | IMAPserver.py:289-300 | In UID mode fetch succeeds exactly when the end is unset, and otherwise raises AttributeError. In sequence mode it fails exactly when resolution fails. On success there is one item per resolved entry, in order. Each item carries the entry's number and file, the UID that file holds and that UID's flags. Fetching never changes flags or the store. |
| `ImapMailbox.TouchOne` | IMAPserver.py:325-335 | The visited message gets a UID. Mode 0 gives it exactly the requested list. Any other mode keeps its list, or gives it an empty one if it had none. Every other list is unchanged. |
| `ImapMailbox.TouchAll` | IMAPserver.py:325-335 | Every visited message gets a UID and a list. The store, existing UIDs and flag keys are kept. The remembered target is the last entry's number and UID. Without new UIDs nothing is saved. |
| `ImapMailbox.TouchAllLeavesOthers` | IMAPserver.py:325-335 | The first loop leaves the list of every message it does not visit unchanged. |
| `ImapMailbox.TouchAllReplaces` | IMAPserver.py:329-331 | In mode 0 every visited message ends with exactly the requested list. |
| `ImapMailbox.TouchAllKeepsLists` | IMAPserver.py:333-335 | In modes other than 0 the first loop changes no list; a missing one becomes empty. |
| `ImapMailbox.Store` | IMAPserver.py:311-350 | UID mode returns None and changes no flag; it runs UID resolution, which assigns the missing UIDs and saves when the set's end is unset and leaves the mailbox as it is otherwise. Sequence mode raises IndexError when resolution does. It otherwise returns a dictionary, which is empty unless the mode is −1. The store never changes, in either mode. The only errors are IndexError and NameError. |
| `ImapMailbox.StoreReplace` | IMAPserver.py:321-335 | Sequence mode 0: every resolved message gets exactly the requested list and the other lists are kept. The result is empty. Nothing is saved when every message had a UID. |
| `ImapMailbox.StoreAdd` | IMAPserver.py:337-341 | Sequence mode 1: only the last resolved message's list changes. It becomes its old list with the absent requested flags appended, each once. The result is empty and, without new UIDs, nothing is saved. |
| `ImapMailbox.StoreRemove` | IMAPserver.py:343-349 | Sequence mode −1: only the last resolved message's list changes, losing one occurrence per requested flag. When something was removed, that list is reported under the last sequence number and the record is saved. Otherwise the result is empty. |
| `ImapMailbox.StoreUnboundLast` | IMAPserver.py:337-347 | Modes 1 and −1 on a set that resolves to nothing raise NameError as soon as a flag is requested. |
| `ImapMailbox.ExpungeLoop` | IMAPserver.py:358-370 | Every message is either kept or reported. |
| `ImapMailbox.ExpungeLoopSpec` | IMAPserver.py:360-370 | The survivors are exactly the messages not marked "Deleted", and the reported UIDs are exactly those of the marked ones. |
| `ImapMailbox.ExpungeInStoreOrder` | IMAPserver.py:360-368 | The loop works in store order: expunging a store is expunging its two halves in turn and concatenating the results. |
| `ImapMailbox.Expunge` | IMAPserver.py:352-370 | The record and the file are untouched. Exactly the messages marked "Deleted" leave the store, and exactly their UIDs are returned. |
| `ImapMailbox.ExpungedUidsNotReused` | IMAPserver.py:352-370 | Under the UID invariant, a removed UID stays below the counter, even after a later assignment, so it is never handed out again. |
| `MessageSets.MembersAreRequested` | IMAPserver.py:249 | Iterating a closed set yields exactly the numbers lying in one of its ranges. |
| `MessageSets.Put` | IMAPserver.py:251 | A dict assignment adds the key. An existing key keeps its place and takes the new value; a new key goes to the end. Keys stay distinct. |
| `MessageSets.FirstsInKeepsDistinctRun` | IMAPserver.py:248-252 | Distinct numbers from 0 to the count, none already keyed, pass the first-occurrence filter unchanged and in order. |
| `Sorting.Sort` | IMAPserver.py:275 | The result is ascending and a permutation of the UIDs. |
| `Sorting.IndexOf` | IMAPserver.py:283 | The position of the first occurrence. |
| `FlagLists.RemoveFirst` | IMAPserver.py:345 | `list.remove` drops exactly the first occurrence, and the multiset loses one copy. |
| `FlagLists.AddFlags` | IMAPserver.py:337-341 | The old list stays a prefix, and the result holds exactly the old and requested flags. Appended flags are new and appear once. |
| `FlagLists.RemoveFlags` | IMAPserver.py:343-349 | As a multiset the result is the old list minus the requested flags. Something was removed exactly when some requested flag was present. |
| `FlagLists.RemoveNothing` | IMAPserver.py:343-347 | When no requested flag is present the list is unchanged. |
| `FlagLists.AddKeepsNoRepeats` | IMAPserver.py:339-341 | Adding to a list without repeats keeps it without repeats. |
| `FlagLists.RemoveClearsRequested` | IMAPserver.py:343-345 | A requested flag present at most as often as requested is gone afterwards. |
| `Passwords.Strip` | IMAPserver.py:455 | The stripped line is a slice of the line with only white space cut off either end. It neither starts nor ends with white space. |
| `Passwords.StripKeepsColons` | IMAPserver.py:453-455 | Stripping removes no colon. |
| `Passwords.ParseLine` | IMAPserver.py:453-457 | A line without a colon is skipped. A line with more than one colon raises ValueError. Otherwise the stripped line is the user, a colon and the password, neither containing a colon. |
| `Passwords.ParseLines` | IMAPserver.py:451-457 | Parsing fails with ValueError exactly when some line has more than one colon. |
| `Passwords.PasswordFileToDict` | IMAPserver.py:444-459 | Fails exactly when some line has more than one colon. A file without colons gives an empty dictionary. |
| `Passwords.NoCredentials` | IMAPserver.py:451-453 | Lines without colons leave the dictionary unchanged. |
| `Passwords.LastLineWins` | IMAPserver.py:451-457 | A user is in the dictionary exactly when some line names them, and maps to the encoded password of the last such line. |
| `Passwords.KeysAreUsers` | IMAPserver.py:451-457 | Every key is the UTF-8 encoding of a user some line names. |
| `Utf8.Encode` | IMAPserver.py:457 | Each character takes one to four bytes. |
| `Utf8.DecodeEncode` | smtpserver.py:29-37 | Strict decoding undoes encoding, so text survives the writer's encode and a later decode. |
| `Utf8.EncodeInjective` | IMAPserver.py:457 | Different user names have different byte keys. |
| `Smtp.LineReceived` | smtpserver.py:28-31 | A line is buffered, after decoding if it is bytes, and nothing is delivered. Undecodable bytes raise UnicodeDecodeError. A deleted buffer raises AttributeError. |
| `Smtp.FeedFails` | smtpserver.py:28-31 | A run of lines fails exactly when some line does not decode, or when there is a line and the buffer is gone. |
| `Smtp.FeedBuffersInOrder` | smtpserver.py:28-31 | Decodable lines end up in the buffer in arrival order, and only there. |
| `Smtp.JoinWithEmptyLast` | smtpserver.py:35-36 | Joining the lines plus an empty line on newlines is each line followed by a newline. |
| `Smtp.TerminatedShape` | smtpserver.py:35-36 | Once a line was received the stored text ends in a newline and starts with the first line. |
| `Smtp.EomReceived` | smtpserver.py:33-37 | Appends an empty line to the buffer and delivers the UTF-8 of every line followed by a newline. A deleted buffer raises. |
| `Smtp.DeliverMessage` | smtpserver.py:26-37 | A fresh writer fed decodable lines and then the end of the message delivers one message, which decodes to those lines in order, each ending in a newline. |
| `Smtp.ConnectionLost` | smtpserver.py:39-41 | The buffer is deleted and nothing is delivered. A second loss raises. |
| `Smtp.LostConnectionStoresNothing` | smtpserver.py:39-41 | After a lost connection, receiving a line and ending the message both fail, and nothing was stored. |
| `Smtp.ValidateFrom` | smtpserver.py:67-72 | The sender is accepted unchanged and the client is recorded. |
| `Smtp.ValidateTo` | smtpserver.py:74-87 | Accepts a recipient exactly when its domain decodes and is a valid domain. Any other recipient raises SMTPBadRcpt, or a decode error first. |
| `Smtp.AcceptsExactlyValidDomains` | smtpserver.py:74-87 | For a domain given as text, acceptance is exactly membership in the valid domains, and `validateFrom` has no influence on it. |

## Left out

- The Twisted reactor, factories, protocol subclasses and start-up code (IMAPserver.py:503-537, smtpserver.py:89-107): network plumbing.
- `listMailboxes` (IMAPserver.py:54-59): it lists the directory, an order set by the file system.
- `getHierarchicalDelimiter`, `getFlags`, the listeners and `requestStatus`: constants, and hooks into the protocol library.
- `receivedHeader` (smtpserver.py:50-65): formats a header from the clock and prints; no state.
- The messages `validateTo` prints (smtpserver.py:76-86) about an accepted or an unlisted domain: console output, no state.
- `MaildirMessage` (IMAPserver.py:382-426): reading files and the `email` parser are foreign code. Fetch returns the file name, UID and flags an item is built from.
- `CredentialsChecker` and `MailUserRealm` (IMAPserver.py:428-501): deferred-based authentication through the library's password check.
- Pickle and file handles: a save is modelled as copying the record into the file content the mailbox keeps. `ImapAccount.Commit` copies that content into the directory's metadata file.
- Twisted's maildir library (`initializeMaildir`, `appendMessage`, `deleteMessage`, listing order) is not part of this model.
  - The store is an abstract sequence.
  - A created directory starts empty.
  - Delivery appends the encoded message to a list, and `appendMessage`'s Deferred is not modelled.
  - `expunge` treats `deleteMessage(filename)` as removal of that message from the store.
- The writer constructor (smtpserver.py:15-26) creates the user's directories on disk; the model starts from a writer with an empty buffer.
- Randomness: the UID validity drawn by `random.randint` is a parameter in [1000000, 9999999]. `uniqueValidityIdentifier` (IMAPserver.py:144) is never read and is not modelled.
- The file object's line splitting (universal newlines): the password file is taken as the sequence of lines it yields.
- smtpclient.py, NNTP-Client.py and NNTP-server.py: a GUI client, an interactive client and bootstrap, none of it mailbox bookkeeping.
- Concurrency and locking: the code has none.
- `MessageSet` normalisation in twisted (merging and cleaning ranges, and the error for setting `last` twice): message sets are taken as lists of ranges. The model sets `last` once per call.
- ImapMailbox.Store: in mode 0 the code stores the caller's list object itself for every visited message, so later in-place edits would be shared. The model stores values, and mode 0 never edits a list afterwards in the same call.
- ImapAccount.Rename: `os.rename` onto an existing empty directory succeeds on POSIX. A maildir is never empty, so the model fails on every existing target.
- ImapAccount.Commit: the account has no fetch, store or expunge of its own. A caller runs the mailbox operation and commits its result. A commit carries the saved record to disk, but not the files expunge deletes, which live in twisted's maildir library. A save by a cached mailbox whose directory was renamed away raises in the code. `ImapAccount.SetSubscribed` models that error. The other saves are store's in mode -1 and every save of `_assignUIDs` (see the next line); for those the mailbox operation returns Ok, and a commit then just leaves the directories alone. The count of writes in a mailbox stands for the object identity the cache relies on; it has no counterpart in the record.
- ImapMailbox.AssignMissingUids: the save inside `_assignUIDs` (IMAPserver.py:201) raises in the code when the cached mailbox's directory has been renamed away. It is reached from `getUID`, UID resolution, `fetch` and store's first loop, so `ImapMailbox.GetUid`, `ImapMailbox.UidResolve`, `ImapMailbox.Fetch` and `ImapMailbox.Store` return Ok where the code raises OSError. The mailbox does not see the directories, and the model takes every save of a mailbox operation to succeed; only `ImapAccount.SetSubscribed` models the failed save.
- ImapMailbox.Fetch: the code is a generator, so resolution and UID assignment happen only once iteration starts. The model runs it to the end at the call.
- ImapMailbox.Expunge: the loop is taken to visit every message of the store as it stood when the call began, and each marked message leaves the store. How twisted's `deleteMessage` changes the listing that `for filename in self.maildir` walks (IMAPserver.py:128-129, 360) is not part of this model. The library's `deleteMessage` is handed a file name here, and this model does not assume that removal shifts the list under the running loop.
- ImapAccount.GetMailbox: `os.path.join` with an absolute or empty name is not modelled; a name is a directory name under the user's directory.
- Paths.Lower: lower-cases ASCII letters only. Compared with "inbox" it gives the same answer as Python's Unicode `str.lower`.
- Passwords.PasswordFileToDict: its own contract states the error cases and the colon-free file. What the dictionary holds is stated by `Passwords.LastLineWins` and `Passwords.KeysAreUsers` over `Passwords.ParseLines`.
- ImapMailbox.ExpungeLoop: its own contract is a length count only. Contents and order are stated by `ImapMailbox.ExpungeLoopSpec` and `ImapMailbox.ExpungeInStoreOrder`.

=== FILE: account.dfy ===
/** A user's IMAP account, `IMAPUserAccount` of IMAPserver.py:14-125: the
    mail directories under the user's directory and the cache of opened
    mailboxes, keyed by canonical mailbox name. A mailbox is opened once and
    the cached object is returned from then on. */
module ImapAccount {
  import opened Errors
  import opened Paths
  import opened MailboxMetadata
  import opened ImapMailbox

  /** `dirs` maps each directory name under the user's directory to what is
      on disk there: its message files and the metadata pickle inside it;
      `cache` is `mailboxCache`. */
  datatype Account = Account(dirs: map<string, Maildir>, cache: map<string, Mailbox>)

  datatype Lookup = Lookup(acct: Account, key: string, box: Mailbox)

  /** How often the mailbox cached under `key` has written its metadata
      file; none when nothing is cached there yet. */
  function CachedWrites(a: Account, key: string): nat {
    if key in a.cache then a.cache[key].writes else 0
  }

  /** `box` has written its metadata file since the cache last held it. */
  predicate WroteFile(a: Account, key: string, box: Mailbox) {
    box.saved.Some? && box.writes > CachedWrites(a, key)
  }

  /** The account once the opened mailbox `box` is what the cache holds
      under `key`. Python's cache holds the very object that fetch, store,
      expunge and UID assignment change in place, and that object's
      `saveMetadata` writes the pickle inside whatever directory has that
      name when it runs; so the cache takes `box`, the directory's metadata
      file takes what `box` last saved if it wrote since, and is left alone
      if it did not. Nothing else changes. */
  function Commit(a: Account, key: string, box: Mailbox): (r: Account)
    ensures r.cache == a.cache[key := box]
    ensures r.dirs.Keys == a.dirs.Keys
    ensures forall d :: d in a.dirs && d != key ==> r.dirs[d] == a.dirs[d]
    ensures key in a.dirs && WroteFile(a, key, box) ==> r.dirs[key] == Maildir(a.dirs[key].files, box.saved)
    ensures key in a.dirs && !WroteFile(a, key, box) ==> r.dirs[key] == a.dirs[key]
  {
    var dirs := if key in a.dirs && WroteFile(a, key, box) then a.dirs[key := a.dirs[key].(metadataFile := box.saved)] else a.dirs;
    Account(dirs, a.cache[key := box])
  }

  /** `_getMailbox` (IMAPserver.py:21-52). The name is canonicalised; a cached
      mailbox is returned as it is; otherwise a missing directory is created
      empty when `create` is set and raises KeyError when it is not, and the
      mailbox is opened (with `validity` standing for the random UID validity
      a mailbox without a metadata file draws) and cached. Opening a
      directory with messages and no metadata file assigns UIDs, which
      writes the file. */
  function GetMailbox(a: Account, path: string, create: bool, validity: int): (r: Result<Lookup>)
    requires ValidityInRange(validity)
    ensures r.Err? <==> Canonical(path) !in a.cache && Canonical(path) !in a.dirs && !create
    ensures r.Err? ==> r.error == KeyError
    ensures r.Ok? ==> (r.value.key == Canonical(path)
      && r.value.acct.cache == a.cache[Canonical(path) := r.value.box])
    ensures r.Ok? ==> forall d :: d in a.dirs && d != Canonical(path) ==>
      d in r.value.acct.dirs && r.value.acct.dirs[d] == a.dirs[d]
    ensures r.Ok? && Canonical(path) in a.cache ==> r.value.acct == a && r.value.box == a.cache[Canonical(path)]
    ensures r.Ok? && Canonical(path) !in a.cache && Canonical(path) in a.dirs ==>
      && r.value.box == Open(a.dirs[Canonical(path)], validity)
      && r.value.acct.dirs == a.dirs[Canonical(path) := Maildir(a.dirs[Canonical(path)].files, r.value.box.saved)]
    ensures r.Ok? && Canonical(path) !in a.cache && Canonical(path) !in a.dirs ==>
      && r.value.box == Open(Maildir([], None), validity)
      && r.value.acct.dirs == a.dirs[Canonical(path) := Maildir([], None)]
      && r.value.box.store == [] && r.value.box.saved.None?
  {
    var key := Canonical(path);
    if key in a.cache then Ok(Lookup(a, key, a.cache[key]))
    else if key in a.dirs then
      var box := Open(a.dirs[key], validity);
      var r := Commit(a, key, box);
      assert r.dirs == a.dirs[key := Maildir(a.dirs[key].files, box.saved)];
      Ok(Lookup(r, key, box))
    else if create then
      var dir := Maildir([], None);
      var box := Open(dir, validity);
      var r := Commit(a.(dirs := a.dirs[key := dir]), key, box);
      assert r.dirs == a.dirs[key := dir];
      Ok(Lookup(r, key, box))
    else Err(KeyError)
  }

  /** A later lookup of a committed mailbox finds it in the cache: the
      changes an operation made to the selected mailbox are what every later
      operation on that name sees. */
  lemma CommitThenLookup(a: Account, box: Mailbox, path: string, create: bool, validity: int)
    requires ValidityInRange(validity)
    ensures var c := Commit(a, Canonical(path), box);
      GetMailbox(c, path, create, validity) == Ok(Lookup(c, Canonical(path), box))
  {
  }

  /** Every spelling of the inbox, and any two names that differ only there,
      reach the same cached mailbox. */
  lemma LookupIgnoresInboxSpelling(a: Account, p: string, q: string, create: bool, validity: int)
    requires ValidityInRange(validity)
    requires Canonical(p) == Canonical(q)
    ensures GetMailbox(a, p, create, validity) == GetMailbox(a, q, create, validity)
  {
  }

  /** A second lookup of the same name finds the first one's mailbox in the
      cache and changes nothing. */
  lemma LookupIsCached(a: Account, path: string, create: bool, create2: bool, validity: int, validity2: int)
    requires ValidityInRange(validity) && ValidityInRange(validity2)
    requires GetMailbox(a, path, create, validity).Ok?
    ensures var l := GetMailbox(a, path, create, validity).value;
      GetMailbox(l.acct, path, create2, validity2) == Ok(l)
  {
  }

  /** `select` (IMAPserver.py:61-65, and again at 121-125): the mailbox of
      that name, the cached one if there is one, which stays cached. */
  function Select(a: Account, path: string, validity: int): (r: Result<Lookup>)
    requires ValidityInRange(validity)
    ensures r.Err? <==> Canonical(path) !in a.cache && Canonical(path) !in a.dirs
    ensures r.Err? ==> r.error == KeyError
    ensures r.Ok? ==> (r.value.key == Canonical(path)
      && r.value.acct.cache == a.cache[Canonical(path) := r.value.box]
      && r.value.box == r.value.acct.cache[Canonical(path)])
    ensures r.Ok? ==> (r.value.acct.dirs.Keys == a.dirs.Keys
      && forall d :: d in a.dirs && d != Canonical(path) ==> r.value.acct.dirs[d] == a.dirs[d])
    ensures r.Ok? && Canonical(path) in a.cache ==> r.value.acct == a && r.value.box == a.cache[Canonical(path)]
    ensures r.Ok? && Canonical(path) !in a.cache ==>
      && r.value.box == Open(a.dirs[Canonical(path)], validity)
      && r.value.acct.dirs[Canonical(path)] == Maildir(a.dirs[Canonical(path)].files, r.value.box.saved)
  {
    GetMailbox(a, path, false, validity)
  }

  /** `create` (IMAPserver.py:67-71): the lookup with creation; it never fails
      and returns nothing. A name not yet cached is opened, from a new empty
      directory when there is none; every other directory and every other
      cached mailbox stays as it was. */
  function Create(a: Account, path: string, validity: int): (r: Account)
    requires ValidityInRange(validity)
    ensures Canonical(path) in r.cache
    ensures Canonical(path) !in a.cache ==> Canonical(path) in r.dirs
    ensures a.dirs.Keys <= r.dirs.Keys && r.dirs.Keys <= a.dirs.Keys + {Canonical(path)}
    ensures forall d :: d in a.dirs && d != Canonical(path) ==> r.dirs[d] == a.dirs[d]
    ensures forall k :: k in a.cache ==> k in r.cache && r.cache[k] == a.cache[k]
    ensures r.cache.Keys == a.cache.Keys + {Canonical(path)}
    ensures Canonical(path) in a.cache ==> r == a
    ensures Canonical(path) !in a.cache && Canonical(path) in a.dirs ==>
      && r.cache[Canonical(path)] == Open(a.dirs[Canonical(path)], validity)
      && r.dirs[Canonical(path)] == Maildir(a.dirs[Canonical(path)].files, r.cache[Canonical(path)].saved)
    ensures Canonical(path) !in a.cache && Canonical(path) !in a.dirs ==>
      && r.cache[Canonical(path)] == Open(Maildir([], None), validity)
      && r.dirs[Canonical(path)] == Maildir([], None)
  {
    GetMailbox(a, path, true, validity).value.acct
  }

  /** After `create` the mailbox can be selected, whatever validity either draws. */
  lemma CreateThenSelect(a: Account, path: string, v1: int, v2: int)
    requires ValidityInRange(v1) && ValidityInRange(v2)
    ensures var c := Create(a, path, v1);
      Select(c, path, v2).Ok? && Select(c, path, v2).value.acct == c
  {
  }

  /** `delete` (IMAPserver.py:73-77): always refused. */
  function Delete(a: Account, path: string): (r: Result<Account>)
    ensures r == Err(PermissionDenied)
  {
    Err(PermissionDenied)
  }

  /** `rename` (IMAPserver.py:79-88): `os.rename` on the two names as given,
      with no canonicalisation and no cache update. A missing source fails; a
      target that already exists is a mail directory, never empty, so the
      rename fails; renaming a name to itself changes nothing. */
  function Rename(a: Account, oldName: string, newName: string): (r: Result<Account>)
    ensures r.Err? <==> oldName !in a.dirs || (newName != oldName && newName in a.dirs)
    ensures r.Err? ==> r.error == OSError
    ensures r.Ok? ==> r.value.cache == a.cache
    ensures r.Ok? && oldName != newName ==>
      && r.value.dirs.Keys == a.dirs.Keys - {oldName} + {newName}
      && r.value.dirs[newName] == a.dirs[oldName]
      && forall d :: d in a.dirs && d != oldName ==> r.value.dirs[d] == a.dirs[d]
    ensures r.Ok? && oldName == newName ==> r.value == a
  {
    if oldName !in a.dirs then Err(OSError)
    else if oldName == newName then Ok(a)
    else if newName in a.dirs then Err(OSError)
    else
      var d := a.dirs[oldName];
      Ok(a.(dirs := (a.dirs - {oldName})[newName := d]))
  }

  /** Renaming there and back restores the directories. */
  lemma RenameBack(a: Account, oldName: string, newName: string)
    requires Rename(a, oldName, newName).Ok?
    ensures var b := Rename(a, oldName, newName).value;
      Rename(b, newName, oldName) == Ok(a)
  {
    var b := Rename(a, oldName, newName).value;
    if oldName != newName {
      assert (b.dirs - {newName})[oldName := a.dirs[oldName]] == a.dirs;
    }
  }

  /** What (un)subscribing leaves behind: the looked-up mailbox, unchanged
      but for its 'subscribed' key, is cached and saved, and the metadata
      file in its directory holds the new record; every other directory and
      every other cached mailbox is as it was. */
  ghost predicate SubscribedAs(a: Account, path: string, value: bool, validity: int, r: Account)
    requires ValidityInRange(validity)
    requires GetMailbox(a, path, false, validity).Ok?
  {
    var l := GetMailbox(a, path, false, validity).value;
    var key := Canonical(path);
    && key in a.dirs && key in r.dirs && key in r.cache
    && r.cache[key].store == l.box.store
    && r.cache[key].meta == l.box.meta.(subscribed := Some(value))
    && r.cache[key].saved == Some(r.cache[key].meta)
    && r.dirs[key] == Maildir(a.dirs[key].files, Some(r.cache[key].meta))
    && r.dirs.Keys == a.dirs.Keys
    && r.cache.Keys == a.cache.Keys + {key}
    && (forall d :: d in a.dirs && d != key ==> r.dirs[d] == a.dirs[d])
    && (forall k :: k in a.cache && k != key ==> k in r.cache && r.cache[k] == a.cache[k])
  }

  /** The mailbox cached under the canonical name, with its 'subscribed'
      key set in place and nothing saved. */
  function SetInPlace(a: Account, path: string, value: bool): (r: Account)
    requires Canonical(path) in a.cache
    ensures r.dirs == a.dirs && r.cache.Keys == a.cache.Keys
    ensures var b := a.cache[Canonical(path)];
      r.cache[Canonical(path)] == b.(meta := b.meta.(subscribed := Some(value)))
    ensures forall k :: k in a.cache && k != Canonical(path) ==> r.cache[k] == a.cache[k]
  {
    var b := a.cache[Canonical(path)];
    a.(cache := a.cache[Canonical(path) := b.(meta := b.meta.(subscribed := Some(value)))])
  }

  /** What a call leaves behind, also when it raises, and what it returned
      or raised. */
  datatype Outcome = Outcome(acct: Account, result: Result<bool>)

  /** Set the 'subscribed' key of the mailbox of that name and save the
      record (IMAPserver.py:94-98); True once saved. The key is set on the
      cached object first, and the save writes the pickle inside the
      directory of that name; a cached mailbox whose directory has since
      been renamed away cannot be saved, `open` raises, and the object
      keeps the new key all the same. */
  function SetSubscribed(a: Account, path: string, value: bool, validity: int): (r: Outcome)
    requires ValidityInRange(validity)
    ensures r.result.Err? <==> Canonical(path) !in a.dirs
    ensures r.result.Err? ==> r.result.error == (if Canonical(path) in a.cache then OSError else KeyError)
    ensures r.result.Ok? ==> r.result.value && SubscribedAs(a, path, value, validity, r.acct)
    ensures Canonical(path) !in a.cache && Canonical(path) !in a.dirs ==> r.acct == a
    ensures Canonical(path) in a.cache && Canonical(path) !in a.dirs ==> r.acct == SetInPlace(a, path, value)
  {
    match GetMailbox(a, path, false, validity)
    case Err(e) => Outcome(a, Err(e))
    case Ok(l) =>
      var box := l.box.(meta := l.box.meta.(subscribed := Some(value)));
      if l.key !in l.acct.dirs then Outcome(Commit(l.acct, l.key, box), Err(OSError))
      else Outcome(Commit(l.acct, l.key, Save(box)), Ok(true))
  }

  /** `subscribe` (IMAPserver.py:90-100). */
  function Subscribe(a: Account, path: string, validity: int): (r: Outcome)
    requires ValidityInRange(validity)
    ensures r.result.Err? <==> Canonical(path) !in a.dirs
    ensures r.result.Err? ==> r.result.error == (if Canonical(path) in a.cache then OSError else KeyError)
    ensures r.result.Ok? ==> r.result.value && SubscribedAs(a, path, true, validity, r.acct)
    ensures Canonical(path) !in a.cache && Canonical(path) !in a.dirs ==> r.acct == a
    ensures Canonical(path) in a.cache && Canonical(path) !in a.dirs ==> r.acct == SetInPlace(a, path, true)
  {
    SetSubscribed(a, path, true, validity)
  }

  /** `unsubscribe` (IMAPserver.py:102-113). */
  function Unsubscribe(a: Account, path: string, validity: int): (r: Outcome)
    requires ValidityInRange(validity)
    ensures r.result.Err? <==> Canonical(path) !in a.dirs
    ensures r.result.Err? ==> r.result.error == (if Canonical(path) in a.cache then OSError else KeyError)
    ensures r.result.Ok? ==> r.result.value && SubscribedAs(a, path, false, validity, r.acct)
    ensures Canonical(path) !in a.cache && Canonical(path) !in a.dirs ==> r.acct == a
    ensures Canonical(path) in a.cache && Canonical(path) !in a.dirs ==> r.acct == SetInPlace(a, path, false)
  {
    SetSubscribed(a, path, false, validity)
  }

  /** `isSubscribed` (IMAPserver.py:115-119): the 'subscribed' key, False when
      absent. Looking the mailbox up may open and cache it. */
  function IsSubscribed(a: Account, path: string, validity: int): (r: Result<(Account, bool)>)
    requires ValidityInRange(validity)
    ensures r.Err? <==> GetMailbox(a, path, false, validity).Err?
    ensures r.Ok? ==> r.value.0 == GetMailbox(a, path, false, validity).value.acct
    ensures r.Ok? ==> r.value.1 == (GetMailbox(a, path, false, validity).value.box.meta.subscribed == Some(true))
  {
    match GetMailbox(a, path, false, validity)
    case Err(e) => Err(e)
    case Ok(l) => Ok((l.acct, l.box.meta.subscribed.GetOr(false)))
  }

  /** Subscribing, then asking, answers True with nothing further changed;
      unsubscribing, then asking, answers False. */
  lemma SubscriptionRoundTrip(a: Account, path: string, value: bool, v1: int, v2: int)
    requires ValidityInRange(v1) && ValidityInRange(v2)
    requires SetSubscribed(a, path, value, v1).result.Ok?
    ensures var b := SetSubscribed(a, path, value, v1).acct;
      IsSubscribed(b, path, v2) == Ok((b, value))
  {
  }

  /** A save that raises still leaves the new key on the cached object, so
      asking afterwards answers with the value that was being set. */
  lemma FailedSaveKeepsKey(a: Account, path: string, value: bool, v1: int, v2: int)
    requires ValidityInRange(v1) && ValidityInRange(v2)
    requires Canonical(path) in a.cache && Canonical(path) !in a.dirs
    ensures var o := SetSubscribed(a, path, value, v1);
      o.result == Err(OSError) && IsSubscribed(o.acct, path, v2) == Ok((o.acct, value))
  {
  }

  /** A mailbox that was never subscribed and has no metadata file reads as
      unsubscribed. */
  lemma NewMailboxUnsubscribed(a: Account, path: string, v1: int, v2: int)
    requires ValidityInRange(v1) && ValidityInRange(v2)
    requires Canonical(path) !in a.cache
    requires Canonical(path) !in a.dirs || a.dirs[Canonical(path)].metadataFile.None?
    ensures var c := Create(a, path, v1);
      IsSubscribed(c, path, v2).Ok? && !IsSubscribed(c, path, v2).value.1
  {
  }
  // ---- what reaches the disk ----

  /** A saved record travels with its directory: after the mailbox is
      committed and its directory renamed to a name nobody has cached,
      selecting the new name opens the directory's messages with exactly the
      record the mailbox last saved, whatever validity the new open draws. */
  lemma ReopenAfterRename(a: Account, key: string, box: Mailbox, n: string, v: int)
    requires ValidityInRange(v)
    requires key in a.dirs && WroteFile(a, key, box)
    requires Canonical(n) == n && n != key && n !in a.cache
    requires Rename(Commit(a, key, box), key, n).Ok?
    ensures var b := Rename(Commit(a, key, box), key, n).value;
      && Select(b, n, v).Ok?
      && Select(b, n, v).value.box.meta == box.saved.value
      && Select(b, n, v).value.box.store == a.dirs[key].files
  {
    var c := Commit(a, key, box);
    var b := Rename(c, key, n).value;
    assert b.dirs[n] == c.dirs[key];
  }

  /** The subscription is in the metadata file, so it survives a rename of
      the directory: subscribe, rename, and the new name reads as subscribed. */
  lemma SubscribeSurvivesRename(a: Account, path: string, n: string, v1: int, v2: int)
    requires ValidityInRange(v1) && ValidityInRange(v2)
    requires Subscribe(a, path, v1).result.Ok?
    requires Canonical(n) == n && n != Canonical(path)
    requires n !in Subscribe(a, path, v1).acct.cache
    requires Rename(Subscribe(a, path, v1).acct, Canonical(path), n).Ok?
    ensures var b := Rename(Subscribe(a, path, v1).acct, Canonical(path), n).value;
      IsSubscribed(b, n, v2).Ok? && IsSubscribed(b, n, v2).value.1
  {
    var s := Subscribe(a, path, v1).acct;
    var b := Rename(s, Canonical(path), n).value;
    assert b.dirs[n] == s.dirs[Canonical(path)];
  }

  /** The UID validity of a mailbox is stable across a rename: a directory
      with messages and no metadata file gets its record, with the validity
      drawn then, written when first selected, and selecting it under its
      new name reads that record back. */
  lemma ValiditySurvivesRename(a: Account, path: string, n: string, v1: int, v2: int)
    requires ValidityInRange(v1) && ValidityInRange(v2)
    requires Canonical(path) !in a.cache && Canonical(path) in a.dirs
    requires a.dirs[Canonical(path)].metadataFile.None? && |a.dirs[Canonical(path)].files| > 0
    requires Canonical(n) == n && n != Canonical(path) && n !in a.cache
    requires Rename(Select(a, path, v1).value.acct, Canonical(path), n).Ok?
    ensures var l := Select(a, path, v1).value;
      var b := Rename(l.acct, Canonical(path), n).value;
      && Select(b, n, v2).Ok?
      && Select(b, n, v2).value.box.meta == l.box.meta
      && Select(b, n, v2).value.box.meta.uidvalidity == v1
  {
    var key := Canonical(path);
    var l := Select(a, path, v1).value;
    assert l.acct == Commit(a, key, l.box);
    ReopenAfterRename(a, key, l.box, n, v2);
  }

  /** What an operation did to the selected mailbox, once committed, is kept
      by a later (un)subscribe, which changes the 'subscribed' key alone. */
  lemma CommittedChangesReachSubscribe(a: Account, box: Mailbox, path: string, value: bool, v: int)
    requires ValidityInRange(v)
    requires Canonical(path) in a.dirs
    ensures var c := Commit(a, Canonical(path), box);
      var r := SetSubscribed(c, path, value, v);
      && r.result == Ok(true)
      && r.acct.cache[Canonical(path)].store == box.store
      && r.acct.cache[Canonical(path)].meta == box.meta.(subscribed := Some(value))
  {
    CommitThenLookup(a, box, path, false, v);
  }

  /** A commit that wrote nothing leaves alone the metadata file of a
      directory renamed in under the mailbox's name: with `k` renamed away
      and `j` renamed to `k`, committing `k`'s cached mailbox without a save
      (a fetch of messages that all have UIDs, say) keeps `j`'s own record
      in the directory now called `k`. */
  lemma UnsavedCommitKeepsRenamedIn(a: Account, k: string, j: string, x: string, box: Mailbox)
    requires k in a.cache && box.writes == a.cache[k].writes
    requires k != x && j != k && j != x
    requires Rename(a, k, x).Ok? && Rename(Rename(a, k, x).value, j, k).Ok?
    ensures var c := Rename(Rename(a, k, x).value, j, k).value;
      Commit(c, k, box).dirs[k] == a.dirs[j]
  {
  }
}

=== FILE: errors.dfy ===
/** Failure-carrying result types shared by the IMAP and SMTP models.

    The Python code signals failure by raising; each exception the modelled
    code can raise is one constructor of `Error`, and an operation that can
    raise returns a `Result`. */
module Errors {

  /** The exceptions the modelled code raises, named after the Python ones. */
  datatype Error =
    | KeyError            // dict lookup of a missing key, or `raise KeyError`
    | IndexError          // list index out of range
    | ValueError          // tuple unpacking of the wrong number of parts
    | TypeError           // `len` applied to a Python 3 `filter` object
    | AttributeError      // a missing attribute (`self.folder`, a deleted `self.lines`)
    | NameError           // a local variable read before it was bound
    | OSError             // a failed `os.rename`, or a failed `open` of the metadata file
    | PermissionDenied    // `imap4.MailboxException("Permission denied.")`
    | UnicodeDecodeError  // bytes that are not valid UTF-8
    | BadRecipient        // `smtp.SMTPBadRcpt`

  datatype Option<+T> = None | Some(value: T) {
    function GetOr(default: T): T {
      match this
      case Some(v) => v
      case None => default
    }
  }

  datatype Result<+T> = Ok(value: T) | Err(error: Error)
}

=== FILE: flag_lists.dfy ===
/** The list edits `IMAPMailbox.store` makes to one message's flag list
    (IMAPserver.py:337-349): appending the requested flags that are absent,
    and removing, one occurrence per request, the requested flags present. */
module FlagLists {

  /** The position of the first occurrence of `x`. */
  function FirstIndex(lst: seq<string>, x: string): (i: nat)
    requires x in lst
    ensures i < |lst| && lst[i] == x && x !in lst[..i]
  {
    if lst[0] == x then 0
    else
      var i := FirstIndex(lst[1..], x);
      assert lst[..i + 1] == [lst[0]] + lst[1..][..i];
      i + 1
  }

  /** `lst.remove(x)`: drops the first occurrence of `x`. */
  function RemoveFirst(lst: seq<string>, x: string): (r: seq<string>)
    requires x in lst
    ensures |r| == |lst| - 1
    ensures multiset(r) == multiset(lst) - multiset{x}
    ensures var i := FirstIndex(lst, x); r == lst[..i] + lst[i + 1..]
  {
    var i := FirstIndex(lst, x);
    assert lst == lst[..i] + [x] + lst[i + 1..];
    lst[..i] + lst[i + 1..]
  }

  /** The mode-1 loop: `for flag in flags: if not lst.count(flag): lst.append(flag)`.
      The old list stays a prefix, the result holds exactly the old and the
      requested flags, and what is appended is new and appended once. */
  function AddFlags(lst: seq<string>, req: seq<string>): (r: seq<string>)
    ensures |lst| <= |r| && r[..|lst|] == lst
    ensures forall f :: f in r <==> f in lst || f in req
    ensures forall i :: |lst| <= i < |r| ==> r[i] !in lst
    ensures forall i, j :: |lst| <= i < j < |r| ==> r[i] != r[j]
    decreases |req|
  {
    if |req| == 0 then lst
    else
      var lst' := if req[0] in lst then lst else lst + [req[0]];
      var r := AddFlags(lst', req[1..]);
      assert forall f :: f in req <==> f == req[0] || f in req[1..];
      assert r[..|lst|] == r[..|lst'|][..|lst|];
      assert forall i :: |lst'| <= i < |r| ==> r[i] !in lst by {
        assert forall f :: f in lst ==> f in lst';
      }
      r
  }

  datatype Removal = Removal(lst: seq<string>, removedAny: bool)

  /** The mode -1 loop: each requested flag present in the list removes its
      first occurrence. Seen as multisets the result is the old list minus
      the requested flags, and something was removed exactly when some
      requested flag was in the list. */
  function RemoveFlags(lst: seq<string>, req: seq<string>): (r: Removal)
    ensures multiset(r.lst) == multiset(lst) - multiset(req)
    ensures r.removedAny <==> exists f :: f in req && f in lst
    decreases |req|
  {
    if |req| == 0 then Removal(lst, false)
    else
      assert req == [req[0]] + req[1..];
      assert multiset(req) == multiset{req[0]} + multiset(req[1..]);
      if req[0] in lst then
        var r := RemoveFlags(RemoveFirst(lst, req[0]), req[1..]);
        assert (multiset(lst) - multiset{req[0]}) - multiset(req[1..]) == multiset(lst) - multiset(req);
        Removal(r.lst, true)
      else
        assert forall f :: f in req && f in lst ==> f in req[1..];
        assert multiset(lst) - multiset(req[1..]) == multiset(lst) - multiset(req);
        RemoveFlags(lst, req[1..])
  }

  /** Removing flags none of which is present leaves the list as it was. */
  lemma {:induction false} RemoveNothing(lst: seq<string>, req: seq<string>)
    requires !RemoveFlags(lst, req).removedAny
    ensures RemoveFlags(lst, req).lst == lst
    decreases |req|
  {
    if |req| > 0 {
      assert req[0] !in lst;
      RemoveNothing(lst, req[1..]);
    }
  }

  /** Adding to a list without repeats keeps it without repeats. */
  lemma AddKeepsNoRepeats(lst: seq<string>, req: seq<string>)
    requires forall i, j :: 0 <= i < j < |lst| ==> lst[i] != lst[j]
    ensures var r := AddFlags(lst, req); forall i, j :: 0 <= i < j < |r| ==> r[i] != r[j]
  {
    var r := AddFlags(lst, req);
    forall i, j | 0 <= i < j < |r| ensures r[i] != r[j] {
      if j < |lst| {
        assert r[i] == lst[i] && r[j] == lst[j];
      } else if i < |lst| {
        assert r[i] == lst[i];
      }
    }
  }

  /** After the mode -1 loop no requested flag is left in a list that
      held each of them at most as often as it was requested. */
  lemma RemoveClearsRequested(lst: seq<string>, req: seq<string>, f: string)
    requires f in req
    requires multiset(lst)[f] <= multiset(req)[f]
    ensures f !in RemoveFlags(lst, req).lst
  {
    var r := RemoveFlags(lst, req).lst;
    assert multiset(r)[f] == 0;
  }
}

=== FILE: mailbox.dfy ===
/** One opened mailbox, `IMAPMailbox` of IMAPserver.py:138-378: the message
    store (file names in listing order), the in-memory metadata record and
    the content of the metadata file, which changes only where the code calls
    `saveMetadata`. */
module ImapMailbox {
  import opened Errors
  import opened MailboxMetadata
  import opened MessageSets
  import opened Sorting
  import opened FlagLists
  import opened PyStrings

  /** A mail directory as the constructor finds it: its message files in
      listing order and the unpickled metadata file, if there is one. */
  datatype Maildir = Maildir(files: seq<string>, metadataFile: Option<Metadata>)

  /** `writes` grows each time this object writes its metadata file, so
      that the account can tell an operation that wrote the file from one
      that did not; a mailbox is a Python object, and two of them opened on
      the same directory at different times are different objects. */
  datatype Mailbox = Mailbox(store: seq<string>, meta: Metadata, saved: Option<Metadata>, writes: nat)

  /** `saveMetadata` (IMAPserver.py:180-184): the file now holds the
      in-memory record, and it has been written once more; the messages and
      the record itself are untouched. */
  function Save(mb: Mailbox): (r: Mailbox)
    ensures r.saved == Some(mb.meta) && r.writes > mb.writes
    ensures r.store == mb.store && r.meta == mb.meta
  {
    mb.(saved := Some(mb.meta), writes := mb.writes + 1)
  }

  /** Every message of the store has a UID. */
  ghost predicate AllAssigned(mb: Mailbox) {
    forall f :: f in mb.store ==> f in mb.meta.uids
  }

  /** `b` holds every UID `a` holds, unchanged. */
  ghost predicate KeepsUids(a: Mailbox, b: Mailbox) {
    forall f :: f in a.meta.uids ==> f in b.meta.uids && b.meta.uids[f] == a.meta.uids[f]
  }

  /** `_assignUIDs` (IMAPserver.py:186-201). Each assignment is followed by a
      save, so the file ends up holding the final record when anything was
      assigned and is left alone otherwise. */
  function AssignMissingUids(mb: Mailbox): (r: Mailbox)
    ensures r.store == mb.store
    ensures AllAssigned(r) && KeepsUids(mb, r)
    ensures forall f :: f in r.meta.uids ==> f in mb.meta.uids || f in mb.store
    ensures r.meta.flags == mb.meta.flags && r.meta.uidvalidity == mb.meta.uidvalidity
    ensures r.meta.subscribed == mb.meta.subscribed
    ensures AllAssigned(mb) ==> r == mb
    ensures !AllAssigned(mb) ==> r.saved == Some(r.meta) && r.meta.uidnext > mb.meta.uidnext && r.writes > mb.writes
    ensures var nn := NewNames(mb.store, mb.meta.uids.Keys);
      && r.meta.uidnext == mb.meta.uidnext + |nn|
      && forall i :: 0 <= i < |nn| ==> nn[i] in r.meta.uids && r.meta.uids[nn[i]] == mb.meta.uidnext + i
  {
    var a := AssignUids(mb.store, mb.meta.uids, mb.meta.uidnext);
    var m := mb.meta.(uids := a.uids, uidnext := a.next);
    AssignInStoreOrder(mb.store, mb.meta.uids, mb.meta.uidnext);
    NewNamesSpec(mb.store, mb.meta.uids.Keys);
    if a.next == mb.meta.uidnext then
      assert AllAssigned(mb);
      AssignKnownIsIdentity(mb.store, mb.meta.uids, mb.meta.uidnext);
      mb
    else
      assert !AllAssigned(mb) by {
        if AllAssigned(mb) {
          AssignKnownIsIdentity(mb.store, mb.meta.uids, mb.meta.uidnext);
        }
      }
      Save(mb.(meta := m))
  }

  /** Assignment keeps the UID invariant of the metadata record. */
  lemma AssignMissingKeepsInvariant(mb: Mailbox)
    requires UidInvariant(mb.meta)
    ensures UidInvariant(AssignMissingUids(mb).meta)
  {
    AssignPreservesInvariant(mb.store, mb.meta.uids, mb.meta.uidnext);
    if !AllAssigned(mb) {
      assert AssignMissingUids(mb).meta.uids == AssignUids(mb.store, mb.meta.uids, mb.meta.uidnext).uids;
    }
  }

  /** `IMAPMailbox.__init__` (IMAPserver.py:141-156): an existing metadata
      file is used as it is; otherwise a fresh record is made and UIDs are
      assigned, which writes the file only if the directory holds messages. */
  function Open(dir: Maildir, validity: int): (r: Mailbox)
    requires ValidityInRange(validity)
    ensures r.store == dir.files
    ensures dir.metadataFile.Some? ==> r.meta == dir.metadataFile.value && r.saved == dir.metadataFile
    ensures dir.metadataFile.None? ==> AllAssigned(r) && UidInvariant(r.meta) && r.meta.flags == map[]
    ensures dir.metadataFile.None? ==> r.meta.uidvalidity == validity && r.meta.subscribed.None?
    ensures dir.metadataFile.None? ==> (r.saved.None? <==> |dir.files| == 0)
    ensures dir.metadataFile.None? && |dir.files| > 0 ==> r.saved == Some(r.meta)
    ensures dir.metadataFile.None? ==> forall f :: f in r.meta.uids ==> f in dir.files
    ensures var nn := NewNames(dir.files, {});
      dir.metadataFile.None? ==> (r.meta.uidnext == 1 + |nn|
      && forall i :: 0 <= i < |nn| ==> nn[i] in r.meta.uids && r.meta.uids[nn[i]] == i + 1)
    ensures r.writes > 0 <==> dir.metadataFile.None? && |dir.files| > 0
  {
    match dir.metadataFile
    case Some(m) => Mailbox(dir.files, m, Some(m), 0)
    case None =>
      var blank := Mailbox(dir.files, InitMetadata(EmptyDict, validity), None, 0);
      assert blank.meta.uids.Keys == {};
      InitEstablishesInvariant(validity);
      AssignMissingKeepsInvariant(blank);
      assert |dir.files| > 0 ==> dir.files[0] in dir.files;
      AssignMissingUids(blank)
  }

  // ---- per-message lookups ----

  /** Python's `lst[i]`: negative positions count from the end. */
  function PyIndex(lst: seq<string>, i: int): Option<string> {
    if 0 <= i < |lst| then Some(lst[i])
    else if -|lst| <= i < 0 then Some(lst[|lst| + i])
    else None
  }

  /** `self.maildir[messageNum - 1]`: the message a sequence number names. */
  function FileAt(mb: Mailbox, n: int): Option<string> {
    PyIndex(mb.store, n - 1)
  }

  datatype UidLookup = UidLookup(uid: int, box: Mailbox)

  /** `getUID` (IMAPserver.py:235-239): the UID of the message at sequence
      number `n`, assigning UIDs first if it has none. */
  function GetUid(mb: Mailbox, n: int): (r: Result<UidLookup>)
    ensures r.Err? <==> FileAt(mb, n).None?
    ensures r.Err? ==> r.error == IndexError
    ensures r.Ok? ==> (FileAt(mb, n).value in r.value.box.meta.uids
      && r.value.uid == r.value.box.meta.uids[FileAt(mb, n).value])
    ensures r.Ok? ==> r.value.box == mb || r.value.box == AssignMissingUids(mb)
    ensures r.Ok? && FileAt(mb, n).value in mb.meta.uids ==> r.value.box == mb
  {
    match FileAt(mb, n)
    case None => Err(IndexError)
    case Some(f) =>
      if f in mb.meta.uids then Ok(UidLookup(mb.meta.uids[f], mb))
      else
        var box := AssignMissingUids(mb);
        assert f in mb.store;
        Ok(UidLookup(box.meta.uids[f], box))
  }

  /** `getMessageCount` (IMAPserver.py:223-224): the sequence numbers 1 up to
      the count, and no higher one, name messages, in store order. */
  function MessageCount(mb: Mailbox): (r: nat)
    ensures forall n :: 1 <= n <= r ==> n <= |mb.store| && FileAt(mb, n) == Some(mb.store[n - 1])
    ensures FileAt(mb, r + 1).None?
  {
    |mb.store|
  }

  /** `getRecentCount`: the code never counts recent messages. */
  function RecentCount(mb: Mailbox): (r: nat)
    ensures r == 0
  {
    0
  }

  /** `isWriteable`: the mailbox always reports itself read-only. */
  function IsWriteable(mb: Mailbox): (r: bool)
    ensures !r
  {
    false
  }

  /** `getUIDValidity`. */
  function UidValidity(mb: Mailbox): (r: int)
    ensures r == mb.meta.uidvalidity
  {
    mb.meta.uidvalidity
  }

  /** `getUIDNext` reads `self.folder`, an attribute `IMAPMailbox` never
      sets, so every call raises. */
  function UidNext(mb: Mailbox): (r: Result<int>)
    ensures r == Err(AttributeError)
  {
    Err(AttributeError)
  }

  /** `getUnseenCount` takes `len` of a `filter` object, which Python 3 does
      not allow, so every call raises before any flag is looked at. */
  function UnseenCount(mb: Mailbox): (r: Result<nat>)
    ensures r == Err(TypeError)
  {
    Err(TypeError)
  }

  /** `destroy`: removing a mailbox is refused. */
  function Destroy(mb: Mailbox): (r: Result<Mailbox>)
    ensures r == Err(PermissionDenied)
  {
    Err(PermissionDenied)
  }

  // ---- message-set resolution ----

  /** The entry for sequence number `k` names the message `k` indexes. */
  ghost predicate ResolvesTo(mb: Mailbox, e: Entry) {
    FileAt(mb, e.key) == Some(e.name)
  }

  /** The loop of `_seqMessageSetToSeqDict`: a number from 0 to the count is
      kept and indexes the store; any other number is dropped. A new key goes
      to the end of the dictionary, so the keys come in the order the numbers
      first occur. */
  function CollectSeq(mb: Mailbox, nums: seq<int>, acc: seq<Entry>): (r: Result<seq<Entry>>)
    ensures r.Err? <==> (|mb.store| == 0 && 0 in nums)
    ensures r.Err? ==> r.error == IndexError
    ensures r.Ok? && DistinctKeys(acc) ==> DistinctKeys(r.value)
    ensures r.Ok? ==> Keys(r.value) == Keys(acc) + (set n | n in nums && 0 <= n <= |mb.store|)
    ensures r.Ok? && (forall i :: 0 <= i < |acc| ==> ResolvesTo(mb, acc[i])) ==>
      forall i :: 0 <= i < |r.value| ==> ResolvesTo(mb, r.value[i])
    decreases |nums|
  {
    if |nums| == 0 then Ok(acc)
    else
      var n := nums[0];
      assert forall x :: x in nums <==> x == n || x in nums[1..];
      if 0 <= n <= |mb.store| then
        match FileAt(mb, n)
        case None => Err(IndexError)
        case Some(f) => CollectSeq(mb, nums[1..], Put(acc, n, f))
      else CollectSeq(mb, nums[1..], acc)
  }

  /** The keys the loop gains come in the order the numbers first occur:
      a new key goes to the end of the dictionary, a repeated one keeps its
      place. */
  lemma {:induction false} CollectSeqOrder(mb: Mailbox, nums: seq<int>, acc: seq<Entry>)
    requires CollectSeq(mb, nums, acc).Ok?
    ensures KeySeq(CollectSeq(mb, nums, acc).value) == KeySeq(acc) + FirstsIn(nums, |mb.store|, Keys(acc))
    decreases |nums|
  {
    if |nums| > 0 {
      var n := nums[0];
      var c := |mb.store|;
      if 0 <= n <= c {
        var f := FileAt(mb, n).value;
        var acc' := Put(acc, n, f);
        assert CollectSeq(mb, nums, acc) == CollectSeq(mb, nums[1..], acc');
        CollectSeqOrder(mb, nums[1..], acc');
        var rest := FirstsIn(nums[1..], c, Keys(acc'));
        PutKeySeq(acc, n, f);
        if n in Keys(acc) {
          assert FirstsIn(nums, c, Keys(acc)) == FirstsIn(nums[1..], c, Keys(acc));
          assert Keys(acc') == Keys(acc);
        } else {
          assert FirstsIn(nums, c, Keys(acc)) == [n] + rest;
          AppendAssoc(KeySeq(acc), [n], rest);
        }
      } else {
        assert CollectSeq(mb, nums, acc) == CollectSeq(mb, nums[1..], acc);
        CollectSeqOrder(mb, nums[1..], acc);
      }
    }
  }

  /** What `d[k] = v` does to the key order: a new key is appended, an
      existing one keeps its place. */
  lemma PutKeySeq(d: seq<Entry>, k: int, v: string)
    ensures k !in Keys(d) ==> KeySeq(Put(d, k, v)) == KeySeq(d) + [k]
    ensures k in Keys(d) ==> KeySeq(Put(d, k, v)) == KeySeq(d)
  {
    var r := Put(d, k, v);
    if k !in Keys(d) {
      assert r == d + [Entry(k, v)];
      assert KeySeq(r) == KeySeq(d) + [k];
    } else {
      assert |r| == |d|;
      assert forall i :: 0 <= i < |d| ==> r[i].key == d[i].key;
    }
  }

  /** The set `_seqMessageSetToSeqDict` iterates: an unset end is closed at the count. */
  function CloseAtCount(mb: Mailbox, ms: MessageSet): (c: MessageSet)
    ensures c.last.Some? && c.ranges == ms.ranges
    ensures LastUnset(ms) ==> c.last == Some(|mb.store|)
    ensures !LastUnset(ms) ==> c == ms
  {
    if LastUnset(ms) then ms.(last := Some(|mb.store|)) else ms
  }

  /** `_seqMessageSetToSeqDict` (IMAPserver.py:244-252). The keys are exactly
      the requested numbers from 0 to the count, without repeats, each naming
      the message it indexes, in the order the set's iteration first yields
      them; 0 passes the bound check and names the last message, and raises
      on an empty mailbox. */
  function SeqResolve(mb: Mailbox, ms: MessageSet): (r: Result<seq<Entry>>)
    ensures var c := CloseAtCount(mb, ms);
      (r.Err? <==> |mb.store| == 0 && 0 in Members(c))
    ensures r.Ok? ==> DistinctKeys(r.value)
    ensures r.Ok? ==> forall n :: n in Keys(r.value) <==>
      n in Members(CloseAtCount(mb, ms)) && 0 <= n <= |mb.store|
    ensures r.Ok? ==> forall i :: 0 <= i < |r.value| ==> ResolvesTo(mb, r.value[i])
    ensures r.Ok? && |mb.store| == 0 ==> r.value == []
    ensures r.Ok? ==> KeySeq(r.value) == FirstsIn(Members(CloseAtCount(mb, ms)), |mb.store|, {})
  {
    var r := CollectSeq(mb, Members(CloseAtCount(mb, ms)), []);
    assert r.Ok? && |r.value| > 0 ==> ResolvesTo(mb, r.value[0]);
    if r.Ok? then
      CollectSeqOrder(mb, Members(CloseAtCount(mb, ms)), []);
      assert KeySeq([]) == [] && Keys([]) == {};
      r
    else r
  }

  /** A resolved sequence number `k` of 1 or more names store entry k-1. */
  lemma SeqKeyNamesEntry(mb: Mailbox, ms: MessageSet, i: int)
    requires SeqResolve(mb, ms).Ok?
    requires 0 <= i < |SeqResolve(mb, ms).value|
    ensures var e := SeqResolve(mb, ms).value[i];
      0 <= e.key <= |mb.store| && (e.key >= 1 ==> e.name == mb.store[e.key - 1])
  {
    var es := SeqResolve(mb, ms).value;
    assert es[i].key in Keys(es);
  }

  /** A single range a:b inside the mailbox resolves to a, a+1, ..., b in
      that order, so b is the message store modes 1 and -1 edit. */
  lemma SingleRangeInOrder(mb: Mailbox, a: int, b: int, last: Option<int>)
    requires 1 <= a <= b <= |mb.store|
    ensures var ms := MessageSet([Range(At(a), At(b))], last);
      && SeqResolve(mb, ms).Ok?
      && KeySeq(SeqResolve(mb, ms).value) == Interval(a, b)
      && LastEntry(SeqResolve(mb, ms).value).key == b
  {
    var ms := MessageSet([Range(At(a), At(b))], last);
    var c := CloseAtCount(mb, ms);
    assert Low(c.ranges[0], c.last.value) == a && High(c.ranges[0], c.last.value) == b;
    assert Expand(c.ranges[1..], c.last.value) == [];
    assert Members(c) == Interval(a, b) + [];
    assert Members(c) == Interval(a, b);
    FirstsInKeepsDistinctRun(Interval(a, b), |mb.store|, {});
    var es := SeqResolve(mb, ms).value;
    assert |KeySeq(es)| == b - a + 1;
  }

  /** Sequence numbers are dense: "1:*" resolves to exactly 1..count. On an
      empty mailbox the set closes to the range 0:1, so 0 is requested, passes
      the bound check and indexes the empty store. */
  lemma SequenceDensity(mb: Mailbox)
    ensures var ms := MessageSet([Range(At(1), Star)], None);
      && (|mb.store| >= 1 ==> (SeqResolve(mb, ms).Ok? &&
           forall n :: n in Keys(SeqResolve(mb, ms).value) <==> 1 <= n <= MessageCount(mb)))
      && (|mb.store| == 0 ==> SeqResolve(mb, ms) == Err(IndexError))
  {
    var ms := MessageSet([Range(At(1), Star)], None);
    var c := CloseAtCount(mb, ms);
    forall n ensures n in Members(c) <==> (if |mb.store| >= 1 then 1 <= n <= |mb.store| else 0 <= n <= 1) {
      MembersAreRequested(c, n);
    }
  }

  /** The UIDs of the store's messages in store order. */
  function StoreUids(mb: Mailbox): (r: seq<int>)
    requires AllAssigned(mb)
    ensures |r| == |mb.store|
    ensures forall i :: 0 <= i < |r| ==> r[i] == mb.meta.uids[mb.store[i]]
  {
    seq(|mb.store|, i requires 0 <= i < |mb.store| => mb.meta.uids[mb.store[i]])
  }

  /** A rank from 1 to the count, naming the message at that position of the store. */
  ghost predicate RankNames(store: seq<string>, e: Entry) {
    1 <= e.key <= |store| && e.name == store[e.key - 1]
  }

  /** The loop of `_uidMessageSetToSeqDict`: a requested UID that some
      message holds is keyed by its 1-based rank among the sorted UIDs,
      naming the message at that position of the store. */
  function CollectUid(store: seq<string>, sorted: seq<int>, nums: seq<int>, acc: seq<Entry>): seq<Entry>
    requires |sorted| == |store|
    decreases |nums|
  {
    if |nums| == 0 then acc
    else
      var u := nums[0];
      if u in sorted then
        var k := IndexOf(sorted, u) + 1;
        CollectUid(store, sorted, nums[1..], Put(acc, k, store[k - 1]))
      else CollectUid(store, sorted, nums[1..], acc)
  }

  /** Collection keeps the keys distinct, and every entry it adds names the
      message at its rank's position in the store. */
  lemma {:induction false} CollectUidShape(store: seq<string>, sorted: seq<int>, nums: seq<int>, acc: seq<Entry>)
    requires |sorted| == |store|
    ensures DistinctKeys(acc) ==> DistinctKeys(CollectUid(store, sorted, nums, acc))
    ensures (forall i :: 0 <= i < |acc| ==> RankNames(store, acc[i])) ==>
      forall i :: 0 <= i < |CollectUid(store, sorted, nums, acc)| ==> RankNames(store, CollectUid(store, sorted, nums, acc)[i])
    decreases |nums|
  {
    if |nums| > 0 {
      var u := nums[0];
      if u in sorted {
        var k := IndexOf(sorted, u) + 1;
        var acc' := Put(acc, k, store[k - 1]);
        assert (forall i :: 0 <= i < |acc| ==> RankNames(store, acc[i])) ==>
          forall i :: 0 <= i < |acc'| ==> RankNames(store, acc'[i]);
        CollectUidShape(store, sorted, nums[1..], acc');
      } else {
        CollectUidShape(store, sorted, nums[1..], acc);
      }
    }
  }

  /** Some requested UID held by a message has rank `k`. */
  ghost predicate RankRequested(sorted: seq<int>, nums: seq<int>, k: int) {
    exists u :: u in nums && u in sorted && k == IndexOf(sorted, u) + 1
  }

  lemma RankRequestedCons(sorted: seq<int>, nums: seq<int>, k: int)
    requires |nums| > 0
    ensures RankRequested(sorted, nums, k) <==>
      (nums[0] in sorted && k == IndexOf(sorted, nums[0]) + 1) || RankRequested(sorted, nums[1..], k)
  {
    if RankRequested(sorted, nums[1..], k) {
      var v :| v in nums[1..] && v in sorted && k == IndexOf(sorted, v) + 1;
      assert v in nums;
    }
    if RankRequested(sorted, nums, k) {
      var v :| v in nums && v in sorted && k == IndexOf(sorted, v) + 1;
      if v != nums[0] {
        assert v in nums[1..] by { assert nums == [nums[0]] + nums[1..]; }
      }
    }
  }

  /** One step of the collection: the dictionary after the first requested
      UID, which gains that UID's rank when some message holds it. */
  lemma CollectUidStep(store: seq<string>, sorted: seq<int>, nums: seq<int>, acc: seq<Entry>) returns (acc': seq<Entry>)
    requires |sorted| == |store| && |nums| > 0
    ensures CollectUid(store, sorted, nums, acc) == CollectUid(store, sorted, nums[1..], acc')
    ensures Keys(acc') == Keys(acc) + (if nums[0] in sorted then {IndexOf(sorted, nums[0]) + 1} else {})
  {
    var u := nums[0];
    acc' := if u in sorted then Put(acc, IndexOf(sorted, u) + 1, store[IndexOf(sorted, u)]) else acc;
  }

  /** The ranks UID collection keys: one per requested UID that some message holds. */
  lemma {:induction false} CollectUidKeys(store: seq<string>, sorted: seq<int>, nums: seq<int>, acc: seq<Entry>, k: int)
    requires |sorted| == |store|
    ensures k in Keys(CollectUid(store, sorted, nums, acc)) <==> k in Keys(acc) || RankRequested(sorted, nums, k)
    decreases |nums|
  {
    if |nums| > 0 {
      var u := nums[0];
      RankRequestedCons(sorted, nums, k);
      var acc' := CollectUidStep(store, sorted, nums, acc);
      CollectUidKeys(store, sorted, nums[1..], acc', k);
    }
  }

  datatype UidResolution = UidResolution(box: Mailbox, entries: Option<seq<Entry>>)

  /** `_uidMessageSetToSeqDict` (IMAPserver.py:255-286). Only a set whose
      end is unset is resolved: the end is closed at the counter as it was
      before UIDs are assigned, UIDs are then assigned, and each requested
      UID that a message holds is keyed by its rank among the sorted UIDs,
      so every key lies in 1..count. A set whose end is already set falls off
      the end of the function, which returns None. */
  function UidResolve(mb: Mailbox, ms: MessageSet): (r: UidResolution)
    ensures r.entries.Some? <==> LastUnset(ms)
    ensures LastUnset(ms) ==> r.box == AssignMissingUids(mb)
    ensures !LastUnset(ms) ==> r.box == mb
    ensures r.entries.Some? ==> DistinctKeys(r.entries.value)
    ensures r.entries.Some? ==> forall i :: 0 <= i < |r.entries.value| ==>
      1 <= r.entries.value[i].key <= |mb.store| && ResolvesTo(r.box, r.entries.value[i])
    ensures r.entries.Some? && |mb.store| == 0 ==> r.entries.value == []
  {
    if !LastUnset(ms) then UidResolution(mb, None)
    else
      var closed := ms.(last := Some(mb.meta.uidnext));
      var box := AssignMissingUids(mb);
      var sorted := Sort(StoreUids(box));
      var es := CollectUid(box.store, sorted, Members(closed), []);
      CollectUidShape(box.store, sorted, Members(closed), []);
      assert |es| > 0 ==> RankNames(box.store, es[0]);
      UidResolution(box, Some(es))
  }

  /** What UID resolution keys: rank `k` is present exactly when some UID
      requested by the set (closed at the counter as it stood before the
      assignment) is held by a message and sits at position k-1 of the sorted
      store UIDs. */
  lemma UidResolveKeys(mb: Mailbox, ms: MessageSet, k: int)
    requires LastUnset(ms)
    ensures var r := UidResolve(mb, ms);
      var sorted := Sort(StoreUids(r.box));
      k in Keys(r.entries.value) <==> RankRequested(sorted, Members(ms.(last := Some(mb.meta.uidnext))), k)
  {
    var box := AssignMissingUids(mb);
    CollectUidKeys(box.store, Sort(StoreUids(box)), Members(ms.(last := Some(mb.meta.uidnext))), [], k);
  }

  // ---- fetch ----

  datatype FetchItem = FetchItem(seqNum: int, file: string, uid: int, flags: seq<string>)
  datatype Fetched = Fetched(box: Mailbox, items: seq<FetchItem>)

  /** `metadata['flags'].get(uid, [])`. */
  function FlagsOf(m: Metadata, uid: int): seq<string> {
    if uid in m.flags then m.flags[uid] else []
  }

  /** A fetched item describes the entry's message as `box` numbers it,
      with its flag list as the record `m` holds it. */
  ghost predicate Describes(m: Metadata, box: Mailbox, e: Entry, it: FetchItem) {
    && it.seqNum == e.key && it.file == e.name
    && it.file in box.meta.uids && it.uid == box.meta.uids[it.file]
    && it.flags == FlagsOf(m, it.uid)
  }

  /** The loop body of `fetch`, over every resolved entry in dictionary order. */
  function FetchEntries(mb: Mailbox, es: seq<Entry>): (r: Result<Fetched>)
    requires forall i :: 0 <= i < |es| ==> ResolvesTo(mb, es[i])
    ensures r.Ok?
    ensures r.value.box.store == mb.store && r.value.box.meta.flags == mb.meta.flags
    ensures r.value.box.meta.uidvalidity == mb.meta.uidvalidity
    ensures KeepsUids(mb, r.value.box)
    ensures |r.value.items| == |es|
    ensures forall i :: 0 <= i < |es| ==> Describes(mb.meta, r.value.box, es[i], r.value.items[i])
    ensures AllAssigned(mb) ==> r.value.box == mb
    decreases |es|
  {
    if |es| == 0 then Ok(Fetched(mb, []))
    else
      assert ResolvesTo(mb, es[0]);
      var l := GetUid(mb, es[0].key).value;
      var item := FetchItem(es[0].key, es[0].name, l.uid, FlagsOf(l.box.meta, l.uid));
      assert l.box.store == mb.store;
      assert forall i :: 0 <= i < |es[1..]| ==> ResolvesTo(l.box, es[1..][i]) by {
        forall i | 0 <= i < |es[1..]| ensures ResolvesTo(l.box, es[1..][i]) {
          assert es[1..][i] == es[i + 1];
          assert ResolvesTo(mb, es[i + 1]);
        }
      }
      var rest := FetchEntries(l.box, es[1..]).value;
      assert AllAssigned(mb) ==> l.box == mb;
      var items := [item] + rest.items;
      assert Describes(mb.meta, rest.box, es[0], item);
      assert forall i :: 1 <= i < |es| ==> Describes(mb.meta, rest.box, es[i], items[i]) by {
        forall i | 1 <= i < |es| ensures Describes(mb.meta, rest.box, es[i], items[i]) {
          assert es[i] == es[1..][i - 1] && items[i] == rest.items[i - 1];
          assert Describes(l.box.meta, rest.box, es[1..][i - 1], rest.items[i - 1]);
        }
      }
      Ok(Fetched(rest.box, items))
  }

  /** `fetch` (IMAPserver.py:289-300), with the generator run to the end. In
      UID mode a set whose end is already set resolves to None, and asking
      None for its items raises. One item is yielded per resolved entry, in
      dictionary order. Fetching never changes flags. */
  function Fetch(mb: Mailbox, ms: MessageSet, byUid: bool): (r: Result<Fetched>)
    ensures byUid ==> (r.Ok? <==> LastUnset(ms))
    ensures byUid && r.Err? ==> r.error == AttributeError
    ensures !byUid ==> (r.Ok? <==> SeqResolve(mb, ms).Ok?)
    ensures !byUid && r.Ok? ==> var es := SeqResolve(mb, ms).value;
      |r.value.items| == |es| && forall i :: 0 <= i < |es| ==> Describes(mb.meta, r.value.box, es[i], r.value.items[i])
    ensures byUid && r.Ok? ==> var u := UidResolve(mb, ms); var es := u.entries.value;
      |r.value.items| == |es| && forall i :: 0 <= i < |es| ==> Describes(u.box.meta, r.value.box, es[i], r.value.items[i])
    ensures r.Ok? ==> r.value.box.store == mb.store && r.value.box.meta.flags == mb.meta.flags
    ensures r.Ok? ==> forall i :: 0 <= i < |r.value.items| ==>
      var it := r.value.items[i];
      it.file in r.value.box.meta.uids && it.uid == r.value.box.meta.uids[it.file] && it.flags == FlagsOf(mb.meta, it.uid)
  {
    if byUid then
      var u := UidResolve(mb, ms);
      match u.entries
      case None => Err(AttributeError)
      case Some(es) => FetchEntries(u.box, es)
    else
      match SeqResolve(mb, ms)
      case Err(e) => Err(e)
      case Ok(es) => FetchEntries(mb, es)
  }

  // ---- store ----

  /** The last message the first loop of `store` visited: its sequence number and UID. */
  datatype Target = Target(seqNum: int, uid: int)
  datatype Touched = Touched(box: Mailbox, last: Option<Target>)

  /** One visit of the first loop of `store` (IMAPserver.py:325-335): look
      up the message's UID (which may assign UIDs and save), then in mode 0 set
      its flag list to the requested one, in any other mode give it an empty
      list if it has none. */
  function TouchOne(mb: Mailbox, e: Entry, flags: seq<string>, mode: int): (r: UidLookup)
    requires ResolvesTo(mb, e)
    ensures r.box.store == mb.store && KeepsUids(mb, r.box)
    ensures r.box.meta.uidvalidity == mb.meta.uidvalidity && r.box.meta.subscribed == mb.meta.subscribed
    ensures e.name in r.box.meta.uids && r.uid == r.box.meta.uids[e.name]
    ensures r.box.meta.flags.Keys == mb.meta.flags.Keys + {r.uid}
    ensures mode == 0 ==> r.box.meta.flags[r.uid] == flags
    ensures mode != 0 ==> r.box.meta.flags[r.uid] == FlagsOf(mb.meta, r.uid)
    ensures forall u :: u in mb.meta.flags && u != r.uid ==> r.box.meta.flags[u] == mb.meta.flags[u]
    ensures AllAssigned(mb) ==> (r.box.saved == mb.saved && r.box.writes == mb.writes && r.box.meta.uids == mb.meta.uids
      && r.box.meta.uidnext == mb.meta.uidnext)
  {
    var l := GetUid(mb, e.key).value;
    var fm := l.box.meta.flags;
    var fm' := if mode == 0 then fm[l.uid := flags] else if l.uid in fm then fm else fm[l.uid := []];
    UidLookup(l.uid, l.box.(meta := l.box.meta.(flags := fm')))
  }

  /** Resolution depends on the store alone, so the rest of the entries still
      resolve after a visit. */
  lemma RestResolves(mb: Mailbox, box: Mailbox, es: seq<Entry>)
    requires |es| > 0 && box.store == mb.store
    requires forall i :: 0 <= i < |es| ==> ResolvesTo(mb, es[i])
    ensures forall i :: 0 <= i < |es[1..]| ==> ResolvesTo(box, es[1..][i])
  {
    forall i | 0 <= i < |es[1..]| ensures ResolvesTo(box, es[1..][i]) {
      assert es[1..][i] == es[i + 1];
      assert ResolvesTo(mb, es[i + 1]);
    }
  }

  /** The first loop of `store`, over every resolved entry in dictionary
      order; it remembers the last message visited. */
  function TouchAll(mb: Mailbox, es: seq<Entry>, flags: seq<string>, mode: int): (r: Touched)
    requires forall i :: 0 <= i < |es| ==> ResolvesTo(mb, es[i])
    ensures r.box.store == mb.store && KeepsUids(mb, r.box)
    ensures r.box.meta.uidvalidity == mb.meta.uidvalidity
    ensures r.box.meta.subscribed == mb.meta.subscribed
    ensures mb.meta.flags.Keys <= r.box.meta.flags.Keys
    ensures r.last.Some? <==> |es| > 0
    ensures r.last.Some? ==>
      var t := r.last.value;
      && t.seqNum == es[|es| - 1].key
      && es[|es| - 1].name in r.box.meta.uids
      && t.uid == r.box.meta.uids[es[|es| - 1].name]
      && t.uid in r.box.meta.flags
    ensures forall i :: 0 <= i < |es| ==> (es[i].name in r.box.meta.uids
      && r.box.meta.uids[es[i].name] in r.box.meta.flags)
    ensures AllAssigned(mb) ==> (r.box.saved == mb.saved && r.box.writes == mb.writes && r.box.meta.uids == mb.meta.uids
      && r.box.meta.uidnext == mb.meta.uidnext)
    decreases |es|
  {
    if |es| == 0 then Touched(mb, None)
    else
      assert ResolvesTo(mb, es[0]);
      var l := TouchOne(mb, es[0], flags, mode);
      RestResolves(mb, l.box, es);
      var t := TouchAll(l.box, es[1..], flags, mode);
      assert forall i :: 1 <= i < |es| ==> es[i] == es[1..][i - 1];
      Touched(t.box, if |es| == 1 then Some(Target(es[0].key, l.uid)) else t.last)
  }

  /** The UIDs of the messages the entries name, once every one of them has a UID. */
  ghost function TouchedUids(box: Mailbox, es: seq<Entry>): set<int>
    requires forall i :: 0 <= i < |es| ==> es[i].name in box.meta.uids
  {
    set i | 0 <= i < |es| :: box.meta.uids[es[i].name]
  }

  /** The first entry's UID is among the touched ones, and so is every UID
      the later entries touch. */
  lemma TouchedUidsCons(a: Mailbox, b: Mailbox, es: seq<Entry>, uid: int)
    requires |es| > 0 && KeepsUids(a, b)
    requires es[0].name in a.meta.uids && a.meta.uids[es[0].name] == uid
    requires forall i :: 0 <= i < |es| ==> es[i].name in b.meta.uids
    ensures forall i :: 0 <= i < |es[1..]| ==> es[1..][i].name in b.meta.uids
    ensures uid in TouchedUids(b, es)
    ensures TouchedUids(b, es[1..]) <= TouchedUids(b, es)
  {
    assert forall i :: 0 <= i < |es[1..]| ==> es[1..][i] == es[i + 1];
    assert b.meta.uids[es[0].name] == uid;
    forall u | u in TouchedUids(b, es[1..]) ensures u in TouchedUids(b, es) {
      var i :| 0 <= i < |es[1..]| && b.meta.uids[es[1..][i].name] == u;
      assert b.meta.uids[es[i + 1].name] == u;
    }
  }

  /** The first loop leaves the list of every message it does not visit as it was. */
  lemma {:induction false} TouchAllLeavesOthers(mb: Mailbox, es: seq<Entry>, flags: seq<string>, mode: int)
    requires forall i :: 0 <= i < |es| ==> ResolvesTo(mb, es[i])
    ensures var b := TouchAll(mb, es, flags, mode).box;
      forall u :: u in mb.meta.flags && u !in TouchedUids(b, es) ==> b.meta.flags[u] == mb.meta.flags[u]
    decreases |es|
  {
    if |es| > 0 {
      assert ResolvesTo(mb, es[0]);
      var l := TouchOne(mb, es[0], flags, mode);
      RestResolves(mb, l.box, es);
      TouchAllLeavesOthers(l.box, es[1..], flags, mode);
      var b := TouchAll(mb, es, flags, mode).box;
      assert b == TouchAll(l.box, es[1..], flags, mode).box;
      TouchedUidsCons(l.box, b, es, l.uid);
    }
  }

  /** In mode 0 every visited message ends with exactly the requested list. */
  lemma {:induction false} TouchAllReplaces(mb: Mailbox, es: seq<Entry>, flags: seq<string>)
    requires forall i :: 0 <= i < |es| ==> ResolvesTo(mb, es[i])
    ensures var b := TouchAll(mb, es, flags, 0).box;
      forall i :: 0 <= i < |es| ==> b.meta.flags[b.meta.uids[es[i].name]] == flags
    decreases |es|
  {
    if |es| > 0 {
      assert ResolvesTo(mb, es[0]);
      var l := TouchOne(mb, es[0], flags, 0);
      RestResolves(mb, l.box, es);
      TouchAllReplaces(l.box, es[1..], flags);
      TouchAllLeavesOthers(l.box, es[1..], flags, 0);
      var b := TouchAll(mb, es, flags, 0).box;
      assert b == TouchAll(l.box, es[1..], flags, 0).box;
      assert b.meta.uids[es[0].name] == l.uid;
      assert b.meta.flags[l.uid] == flags by {
        if l.uid in TouchedUids(b, es[1..]) {
          var k :| 0 <= k < |es[1..]| && b.meta.uids[es[1..][k].name] == l.uid;
        }
      }
      forall i | 1 <= i < |es| ensures b.meta.flags[b.meta.uids[es[i].name]] == flags {
        assert es[i] == es[1..][i - 1];
      }
    }
  }

  /** In any mode but 0 the first loop changes no list: every list afterwards
      is the one the message had, an empty one if it had none. */
  lemma {:induction false} TouchAllKeepsLists(mb: Mailbox, es: seq<Entry>, flags: seq<string>, mode: int)
    requires mode != 0
    requires forall i :: 0 <= i < |es| ==> ResolvesTo(mb, es[i])
    ensures var b := TouchAll(mb, es, flags, mode).box;
      forall u :: u in b.meta.flags ==> b.meta.flags[u] == FlagsOf(mb.meta, u)
    decreases |es|
  {
    if |es| > 0 {
      assert ResolvesTo(mb, es[0]);
      var l := TouchOne(mb, es[0], flags, mode);
      RestResolves(mb, l.box, es);
      TouchAllKeepsLists(l.box, es[1..], flags, mode);
      assert forall u :: FlagsOf(l.box.meta, u) == FlagsOf(mb.meta, u);
    }
  }

  datatype StoreResult = StoreResult(box: Mailbox, changed: Option<map<int, seq<string>>>)

  /** `store` (IMAPserver.py:311-350). In UID mode only the resolution runs
      and None is returned. In sequence mode the first loop visits every
      resolved message; the second loop then works on the list of the LAST
      visited message only: mode 1 appends the absent requested flags, mode
      -1 removes the present ones, records that list under the last sequence
      number and saves. With no message visited and some flag requested,
      modes 1 and -1 read an unbound variable and raise. */
  function Store(mb: Mailbox, ms: MessageSet, flags: seq<string>, mode: int, byUid: bool): (r: Result<StoreResult>)
    ensures byUid ==> r.Ok? && r.value.changed.None? && r.value.box.meta.flags == mb.meta.flags
    ensures byUid && LastUnset(ms) ==> r.value.box == AssignMissingUids(mb)
    ensures byUid && !LastUnset(ms) ==> r.value.box == mb
    ensures !byUid && SeqResolve(mb, ms).Err? ==> r == Err(IndexError)
    ensures r.Ok? ==> r.value.box.store == mb.store
    ensures !byUid && r.Ok? ==> r.value.changed.Some?
    ensures !byUid && mode != -1 && r.Ok? ==> r.value.changed == Some(map[])
    ensures r.Err? ==> r.error == IndexError || r.error == NameError
  {
    if byUid then
      var u := UidResolve(mb, ms);
      Ok(StoreResult(u.box, None))
    else
      match SeqResolve(mb, ms)
      case Err(e) => Err(e)
      case Ok(es) =>
        var t := TouchAll(mb, es, flags, mode);
        var box := t.box;
        if |flags| == 0 then Ok(StoreResult(box, Some(map[])))
        else
          match t.last
          case None =>
            if mode == 1 || mode == -1 then Err(NameError) else Ok(StoreResult(box, Some(map[])))
          case Some(target) =>
            var lst := box.meta.flags[target.uid];
            if mode == 1 then
              var fm := box.meta.flags[target.uid := AddFlags(lst, flags)];
              Ok(StoreResult(box.(meta := box.meta.(flags := fm)), Some(map[])))
            else if mode == -1 then
              var rm := RemoveFlags(lst, flags);
              if rm.removedAny then
                var fm := box.meta.flags[target.uid := rm.lst];
                Ok(StoreResult(Save(box.(meta := box.meta.(flags := fm))), Some(map[target.seqNum := rm.lst])))
              else Ok(StoreResult(box, Some(map[])))
            else Ok(StoreResult(box, Some(map[])))
  }

  /** The last entry of a resolved sequence set. */
  function LastEntry(es: seq<Entry>): Entry
    requires |es| > 0
  {
    es[|es| - 1]
  }

  /** Sequence-mode store, mode 0: every resolved message gets exactly the
      requested list, the other lists stay, nothing is reported, and when
      every message already had a UID nothing is saved. */
  lemma StoreReplace(mb: Mailbox, ms: MessageSet, flags: seq<string>)
    requires SeqResolve(mb, ms).Ok?
    ensures var r := Store(mb, ms, flags, 0, false);
      var es := SeqResolve(mb, ms).value;
      && r.Ok? && r.value.changed == Some(map[])
      && (forall i :: 0 <= i < |es| ==> (es[i].name in r.value.box.meta.uids
           && r.value.box.meta.flags[r.value.box.meta.uids[es[i].name]] == flags))
      && (forall u :: u in mb.meta.flags && u !in TouchedUids(r.value.box, es) ==>
            r.value.box.meta.flags[u] == mb.meta.flags[u])
      && (AllAssigned(mb) ==> r.value.box.saved == mb.saved && r.value.box.writes == mb.writes)
  {
    var es := SeqResolve(mb, ms).value;
    TouchAllReplaces(mb, es, flags);
    TouchAllLeavesOthers(mb, es, flags, 0);
    var t := TouchAll(mb, es, flags, 0);
    assert Store(mb, ms, flags, 0, false) == Ok(StoreResult(t.box, Some(map[])));
  }

  /** Sequence-mode store, mode 1, with some message resolved: only the last
      resolved message's list changes, it gains the requested flags it lacked,
      each once, after its old flags, and nothing is reported. */
  lemma StoreAdd(mb: Mailbox, ms: MessageSet, flags: seq<string>)
    requires SeqResolve(mb, ms).Ok? && |SeqResolve(mb, ms).value| > 0
    ensures var r := Store(mb, ms, flags, 1, false);
      var es := SeqResolve(mb, ms).value;
      var b := r.value.box;
      var uid := b.meta.uids[LastEntry(es).name];
      && r.Ok? && r.value.changed == Some(map[])
      && b.meta.flags[uid] == AddFlags(FlagsOf(mb.meta, uid), flags)
      && (forall u :: u in b.meta.flags && u != uid ==> b.meta.flags[u] == FlagsOf(mb.meta, u))
      && (AllAssigned(mb) ==> b.saved == mb.saved && b.writes == mb.writes)
  {
    var es := SeqResolve(mb, ms).value;
    TouchAllKeepsLists(mb, es, flags, 1);
    var t := TouchAll(mb, es, flags, 1);
    var target := t.last.value;
    var lst := t.box.meta.flags[target.uid];
    assert lst == FlagsOf(mb.meta, target.uid);
    assert target.uid == t.box.meta.uids[LastEntry(es).name];
    if |flags| == 0 {
      assert Store(mb, ms, flags, 1, false) == Ok(StoreResult(t.box, Some(map[])));
      assert AddFlags(lst, flags) == lst;
    } else {
      var fm := t.box.meta.flags[target.uid := AddFlags(lst, flags)];
      var b := t.box.(meta := t.box.meta.(flags := fm));
      assert Store(mb, ms, flags, 1, false) == Ok(StoreResult(b, Some(map[])));
      assert b.meta.uids == t.box.meta.uids;
    }
  }

  /** Sequence-mode store, mode -1, with some message resolved: only the
      last resolved message's list changes, losing one occurrence per
      requested flag; when something was removed the list is reported under
      that message's sequence number and the record is saved. */
  lemma StoreRemove(mb: Mailbox, ms: MessageSet, flags: seq<string>)
    requires SeqResolve(mb, ms).Ok? && |SeqResolve(mb, ms).value| > 0
    ensures var r := Store(mb, ms, flags, -1, false);
      var es := SeqResolve(mb, ms).value;
      var b := r.value.box;
      var uid := b.meta.uids[LastEntry(es).name];
      var old_ := FlagsOf(mb.meta, uid);
      && r.Ok?
      && multiset(b.meta.flags[uid]) == multiset(old_) - multiset(flags)
      && (forall u :: u in b.meta.flags && u != uid ==> b.meta.flags[u] == FlagsOf(mb.meta, u))
      && ((exists f :: f in flags && f in old_) ==>
            r.value.changed == Some(map[LastEntry(es).key := b.meta.flags[uid]]) && b.saved == Some(b.meta))
      && (!(exists f :: f in flags && f in old_) ==> r.value.changed == Some(map[]))
  {
    var es := SeqResolve(mb, ms).value;
    TouchAllKeepsLists(mb, es, flags, -1);
    var t := TouchAll(mb, es, flags, -1);
    var target := t.last.value;
    var lst := t.box.meta.flags[target.uid];
    var rm := RemoveFlags(lst, flags);
    assert lst == FlagsOf(mb.meta, target.uid);
    if |flags| == 0 {
      assert Store(mb, ms, flags, -1, false) == Ok(StoreResult(t.box, Some(map[])));
      assert rm.lst == lst && !rm.removedAny;
    } else {
      var fm := t.box.meta.flags[target.uid := rm.lst];
      var b := t.box.(meta := t.box.meta.(flags := fm));
      if rm.removedAny {
        assert Store(mb, ms, flags, -1, false) == Ok(StoreResult(Save(b), Some(map[target.seqNum := rm.lst])));
      } else {
        assert Store(mb, ms, flags, -1, false) == Ok(StoreResult(t.box, Some(map[])));
        assert rm.lst == lst by {
          RemoveNothing(lst, flags);
        }
      }
    }
  }

  /** Modes 1 and -1 on a set that resolves to nothing raise as soon as a
      flag is requested. */
  lemma StoreUnboundLast(mb: Mailbox, ms: MessageSet, flags: seq<string>, mode: int)
    requires SeqResolve(mb, ms) == Ok([])
    requires |flags| > 0 && (mode == 1 || mode == -1)
    ensures Store(mb, ms, flags, mode, false) == Err(NameError)
  {
  }

  // ---- expunge ----

  /** The test of `expunge`: the message has a UID whose flag list holds "Deleted". */
  predicate MarkedDeleted(m: Metadata, f: string) {
    f in m.uids && "Deleted" in FlagsOf(m, m.uids[f])
  }

  datatype Expunged = Expunged(kept: seq<string>, removed: seq<int>)

  /** The loop of `expunge` over the store as it stood when the call began:
      a message marked deleted leaves the store and its UID is reported. */
  function ExpungeLoop(m: Metadata, store: seq<string>): (r: Expunged)
    ensures |r.kept| + |r.removed| == |store|
  {
    if |store| == 0 then Expunged([], [])
    else
      var rest := ExpungeLoop(m, store[1..]);
      var f := store[0];
      if MarkedDeleted(m, f) then Expunged(rest.kept, [m.uids[f]] + rest.removed)
      else Expunged([f] + rest.kept, rest.removed)
  }

  /** The survivors are exactly the store's messages not marked deleted, and
      the reported UIDs exactly those of the marked ones. */
  lemma {:induction false} ExpungeLoopSpec(m: Metadata, store: seq<string>)
    ensures var r := ExpungeLoop(m, store);
      && (forall f :: f in r.kept <==> f in store && !MarkedDeleted(m, f))
      && (forall u :: u in r.removed <==> exists f :: f in store && MarkedDeleted(m, f) && m.uids[f] == u)
  {
    if |store| > 0 {
      ExpungeLoopSpec(m, store[1..]);
      var f := store[0];
      assert forall g :: g in store <==> g == f || g in store[1..];
    }
  }

  /** The loop visits the store in order: expunging two stretches of the
      store is expunging each in turn. */
  lemma {:induction false} ExpungeInStoreOrder(m: Metadata, s1: seq<string>, s2: seq<string>)
    ensures ExpungeLoop(m, s1 + s2) ==
      Expunged(ExpungeLoop(m, s1).kept + ExpungeLoop(m, s2).kept,
               ExpungeLoop(m, s1).removed + ExpungeLoop(m, s2).removed)
  {
    if |s1| == 0 {
      assert s1 + s2 == s2;
    } else {
      var s := s1 + s2;
      assert s[0] == s1[0] && s[1..] == s1[1..] + s2;
      ExpungeInStoreOrder(m, s1[1..], s2);
      var rest, rest1 := ExpungeLoop(m, s[1..]), ExpungeLoop(m, s1[1..]);
      var e2 := ExpungeLoop(m, s2);
      if MarkedDeleted(m, s1[0]) {
        assert ExpungeLoop(m, s) == Expunged(rest.kept, [m.uids[s1[0]]] + rest.removed);
        assert ExpungeLoop(m, s1) == Expunged(rest1.kept, [m.uids[s1[0]]] + rest1.removed);
        AppendAssoc([m.uids[s1[0]]], rest1.removed, e2.removed);
      } else {
        assert ExpungeLoop(m, s) == Expunged([s1[0]] + rest.kept, rest.removed);
        assert ExpungeLoop(m, s1) == Expunged([s1[0]] + rest1.kept, rest1.removed);
        AppendAssoc([s1[0]], rest1.kept, e2.kept);
      }
    }
  }

  datatype ExpungeResult = ExpungeResult(box: Mailbox, removed: seq<int>)

  /** `expunge` (IMAPserver.py:352-370): removes every message marked
      deleted and returns their UIDs. The metadata record is neither changed
      nor saved, so the counter keeps its value and a removed UID is never
      handed out again. */
  function Expunge(mb: Mailbox): (r: ExpungeResult)
    ensures r.box.meta == mb.meta && r.box.saved == mb.saved && r.box.writes == mb.writes
    ensures |r.box.store| + |r.removed| == |mb.store|
    ensures forall f :: f in r.box.store ==> f in mb.store && !MarkedDeleted(mb.meta, f)
    ensures forall f :: f in mb.store && !MarkedDeleted(mb.meta, f) ==> f in r.box.store
    ensures forall u :: u in r.removed <==>
      exists f :: f in mb.store && MarkedDeleted(mb.meta, f) && mb.meta.uids[f] == u
  {
    var x := ExpungeLoop(mb.meta, mb.store);
    ExpungeLoopSpec(mb.meta, mb.store);
    ExpungeResult(mb.(store := x.kept), x.removed)
  }

  /** No removed UID can come back: under the invariant every removed UID is
      below the counter, which expunge leaves alone and assignment only raises. */
  lemma ExpungedUidsNotReused(mb: Mailbox, u: int)
    requires UidInvariant(mb.meta)
    requires u in Expunge(mb).removed
    ensures u < Expunge(mb).box.meta.uidnext
    ensures u < AssignMissingUids(Expunge(mb).box).meta.uidnext
  {
  }
}

=== FILE: message_sets.dfy ===
/** Client message sets (twisted's `imap4.MessageSet`, as the mailbox code
    uses it) and the ordered dictionaries that message-set resolution builds.

    A message set is a list of ranges whose ends are numbers or the open end
    "*"; `last` is the value "*" stands for once the set is closed. Iterating
    the set yields the numbers of each range in ascending order, range after
    range. Python dictionaries keep their keys in first-insertion order, which
    the flag store depends on, so a resolved set is a sequence of entries with
    distinct keys rather than a `map`. */
module MessageSets {
  import opened Errors

  datatype Bound = At(n: int) | Star
  datatype Range = Range(lo: Bound, hi: Bound)
  datatype MessageSet = MessageSet(ranges: seq<Range>, last: Option<int>)

  /** The test `not messageSet.last`: the open end is not yet set, or is 0. */
  predicate LastUnset(ms: MessageSet) {
    ms.last == None || ms.last == Some(0)
  }

  function BoundValue(b: Bound, star: int): int {
    match b
    case At(n) => n
    case Star => star
  }

  /** The smaller and larger end of a range once "*" stands for `star`;
      a range written high-to-low covers the same numbers (section 9 of RFC 3501). */
  function Low(r: Range, star: int): int {
    var a, b := BoundValue(r.lo, star), BoundValue(r.hi, star);
    if a <= b then a else b
  }

  function High(r: Range, star: int): int {
    var a, b := BoundValue(r.lo, star), BoundValue(r.hi, star);
    if a <= b then b else a
  }

  /** The numbers lo, lo+1, ..., hi. */
  function Interval(lo: int, hi: int): (r: seq<int>)
    ensures |r| == if lo <= hi then hi - lo + 1 else 0
    ensures forall i :: 0 <= i < |r| ==> r[i] == lo + i
  {
    seq(if lo <= hi then hi - lo + 1 else 0, i => lo + i)
  }

  /** The numbers the ranges yield, in iteration order. */
  function Expand(ranges: seq<Range>, star: int): seq<int> {
    if |ranges| == 0 then []
    else Interval(Low(ranges[0], star), High(ranges[0], star)) + Expand(ranges[1..], star)
  }

  /** Iteration over a closed message set. */
  function Members(ms: MessageSet): seq<int>
    requires ms.last.Some?
  {
    Expand(ms.ranges, ms.last.value)
  }

  /** `n` lies in one of the ranges of a closed set. */
  ghost predicate Requested(ms: MessageSet, n: int)
    requires ms.last.Some?
  {
    exists i :: 0 <= i < |ms.ranges| && Low(ms.ranges[i], ms.last.value) <= n <= High(ms.ranges[i], ms.last.value)
  }

  /** Iteration yields exactly the numbers lying in some range. */
  lemma MembersAreRequested(ms: MessageSet, n: int)
    requires ms.last.Some?
    ensures n in Members(ms) <==> Requested(ms, n)
  {
    ExpandMembers(ms.ranges, ms.last.value, n);
  }

  lemma {:induction false} ExpandMembers(ranges: seq<Range>, star: int, n: int)
    ensures n in Expand(ranges, star) <==>
      exists i :: 0 <= i < |ranges| && Low(ranges[i], star) <= n <= High(ranges[i], star)
  {
    if |ranges| > 0 {
      ExpandMembers(ranges[1..], star, n);
      var lo, hi := Low(ranges[0], star), High(ranges[0], star);
      var iv := Interval(lo, hi);
      if lo <= n <= hi {
        assert iv[n - lo] == n;
      }
      if exists i :: 0 <= i < |ranges| && Low(ranges[i], star) <= n <= High(ranges[i], star) {
        var i :| 0 <= i < |ranges| && Low(ranges[i], star) <= n <= High(ranges[i], star);
        if i > 0 {
          assert ranges[1..][i - 1] == ranges[i];
        }
      }
      if exists j :: 0 <= j < |ranges[1..]| && Low(ranges[1..][j], star) <= n <= High(ranges[1..][j], star) {
        var j :| 0 <= j < |ranges[1..]| && Low(ranges[1..][j], star) <= n <= High(ranges[1..][j], star);
        assert ranges[j + 1] == ranges[1..][j];
      }
    }
  }

  // ---- ordered dictionaries from sequence number to message file ----

  datatype Entry = Entry(key: int, name: string)

  predicate DistinctKeys(d: seq<Entry>) {
    forall i, j :: 0 <= i < j < |d| ==> d[i].key != d[j].key
  }

  function Keys(d: seq<Entry>): set<int> {
    set i | 0 <= i < |d| :: d[i].key
  }

  /** `d[k] = v` on a Python dict: an existing key keeps its place and takes
      the new value; a new key goes to the end. */
  function Put(d: seq<Entry>, k: int, v: string): (r: seq<Entry>)
    ensures Keys(r) == Keys(d) + {k}
    ensures DistinctKeys(d) ==> DistinctKeys(r)
    ensures k !in Keys(d) ==> r == d + [Entry(k, v)]
    ensures k in Keys(d) ==> |r| == |d|
    ensures forall i :: 0 <= i < |d| ==> r[i] == (if d[i].key == k then Entry(k, v) else d[i])
  {
    if k in Keys(d) then
      var r := seq(|d|, i requires 0 <= i < |d| => if d[i].key == k then Entry(k, v) else d[i]);
      assert Keys(r) == Keys(d) by {
        forall x | x in Keys(d) ensures x in Keys(r) {
          var i :| 0 <= i < |d| && d[i].key == x;
          assert r[i].key == x;
        }
      }
      r
    else
      var r := d + [Entry(k, v)];
      assert r[|d|].key == k;
      assert Keys(r) == Keys(d) + {k} by {
        forall x | x in Keys(d) ensures x in Keys(r) {
          var i :| 0 <= i < |d| && d[i].key == x;
          assert r[i].key == x;
        }
      }
      r
  }

  /** The keys of an ordered dictionary, in insertion order. */
  function KeySeq(d: seq<Entry>): (r: seq<int>)
    ensures |r| == |d| && forall i :: 0 <= i < |d| ==> r[i] == d[i].key
  {
    seq(|d|, i requires 0 <= i < |d| => d[i].key)
  }

  /** Filtering a number sequence: the numbers from 0 to `count`, each at its
      first occurrence and only if it is not in `seen`, in the order they
      come. */
  function FirstsIn(nums: seq<int>, count: int, seen: set<int>): seq<int>
    decreases |nums|
  {
    if |nums| == 0 then []
    else if 0 <= nums[0] <= count && nums[0] !in seen then [nums[0]] + FirstsIn(nums[1..], count, seen + {nums[0]})
    else FirstsIn(nums[1..], count, seen)
  }

  /** A run of distinct numbers from 0 to `count`, none seen before, passes
      the filter unchanged. */
  lemma {:induction false} FirstsInKeepsDistinctRun(nums: seq<int>, count: int, seen: set<int>)
    requires forall i :: 0 <= i < |nums| ==> 0 <= nums[i] <= count && nums[i] !in seen
    requires forall i, j :: 0 <= i < j < |nums| ==> nums[i] != nums[j]
    ensures FirstsIn(nums, count, seen) == nums
  {
    if |nums| > 0 {
      assert forall i :: 0 <= i < |nums[1..]| ==> nums[1..][i] == nums[i + 1];
      FirstsInKeepsDistinctRun(nums[1..], count, seen + {nums[0]});
      assert [nums[0]] + nums[1..] == nums;
    }
  }
}

=== FILE: metadata.dfy ===
/** The metadata record of one mailbox (`IMAPMailbox.metadata`) and the UID
    bookkeeping on it: `initMetadata` (IMAPserver.py:158-178) and the
    assignment loop of `_assignUIDs` (IMAPserver.py:186-201).

    UIDs are keyed by message file name; flags are keyed by UID and kept as
    lists, in the order they were added. */
module MailboxMetadata {
  import opened Errors

  datatype Metadata = Metadata(
    flags: map<int, seq<string>>,
    uidvalidity: int,
    uids: map<string, int>,
    uidnext: int,
    subscribed: Option<bool>)   // the 'subscribed' key is written only by (un)subscribe

  /** The metadata dictionary before `initMetadata`: any key may be absent. */
  datatype PartialMetadata = PartialMetadata(
    flags: Option<map<int, seq<string>>>,
    uidvalidity: Option<int>,
    uids: Option<map<string, int>>,
    uidnext: Option<int>,
    subscribed: Option<bool>)

  /** The `{}` a mailbox without a metadata file starts from. */
  const EmptyDict := PartialMetadata(None, None, None, None, None)

  /** The range of `random.randint(1000000, 9999999)`, both ends included. */
  predicate ValidityInRange(v: int) {
    1000000 <= v <= 9999999
  }

  /** A complete metadata record seen as a dictionary with every key present. */
  function AsPartial(m: Metadata): PartialMetadata {
    PartialMetadata(Some(m.flags), Some(m.uidvalidity), Some(m.uids), Some(m.uidnext), m.subscribed)
  }

  /** `initMetadata`: each of the four keys that is missing gets its default
      (no flags, the random `validity`, no UIDs, next UID 1); keys already
      present keep their values. */
  function InitMetadata(p: PartialMetadata, validity: int): (m: Metadata)
    requires ValidityInRange(validity)
    ensures p.flags.Some? ==> m.flags == p.flags.value
    ensures p.uidvalidity.Some? ==> m.uidvalidity == p.uidvalidity.value
    ensures p.uids.Some? ==> m.uids == p.uids.value
    ensures p.uidnext.Some? ==> m.uidnext == p.uidnext.value
    ensures p.flags.None? ==> m.flags == map[]
    ensures p.uidvalidity.None? ==> ValidityInRange(m.uidvalidity)
    ensures p.uids.None? ==> m.uids == map[]
    ensures p.uidnext.None? ==> m.uidnext == 1
    ensures m.subscribed == p.subscribed
  {
    Metadata(
      p.flags.GetOr(map[]),
      p.uidvalidity.GetOr(validity),
      p.uids.GetOr(map[]),
      p.uidnext.GetOr(1),
      p.subscribed)
  }

  /** The counter is positive and every assigned UID is positive and below it. */
  ghost predicate UidsBelowNext(uids: map<string, int>, next: int) {
    1 <= next && forall f :: f in uids ==> 1 <= uids[f] < next
  }

  /** No two files share a UID. */
  ghost predicate Injective(uids: map<string, int>) {
    forall f, g :: f in uids && g in uids && f != g ==> uids[f] != uids[g]
  }

  ghost predicate UidInvariant(m: Metadata) {
    UidsBelowNext(m.uids, m.uidnext) && Injective(m.uids)
  }

  /** A freshly initialised record holds the invariant, whatever validity was drawn. */
  lemma InitEstablishesInvariant(validity: int)
    requires ValidityInRange(validity)
    ensures UidInvariant(InitMetadata(EmptyDict, validity))
    ensures InitMetadata(EmptyDict, validity).uidnext == 1
  {
  }

  /** Initialising a dictionary that already has every key changes nothing. */
  lemma InitKeepsCompleteRecord(m: Metadata, validity: int)
    requires ValidityInRange(validity)
    ensures InitMetadata(AsPartial(m), validity) == m
  {
  }

  /** The files of `names` that `_assignUIDs` finds without a UID, in store
      order, each once: a name is skipped when `known` has it or when it
      occurred earlier in the store. */
  function NewNames(names: seq<string>, known: set<string>): seq<string> {
    if |names| == 0 then []
    else if names[0] in known then NewNames(names[1..], known)
    else [names[0]] + NewNames(names[1..], known + {names[0]})
  }

  /** The new names are exactly the store's files outside `known`, without repeats. */
  lemma {:induction false} NewNamesSpec(names: seq<string>, known: set<string>)
    ensures var r := NewNames(names, known);
      && (forall i :: 0 <= i < |r| ==> r[i] in names && r[i] !in known)
      && (forall i, j :: 0 <= i < j < |r| ==> r[i] != r[j])
      && (forall f :: f in names && f !in known ==> f in r)
  {
    if |names| > 0 {
      assert forall f :: f in names[1..] ==> f in names;
      assert forall f :: f in names ==> f == names[0] || f in names[1..];
      if names[0] in known {
        NewNamesSpec(names[1..], known);
      } else {
        NewNamesSpec(names[1..], known + {names[0]});
      }
    }
  }

  datatype Assignment = Assignment(uids: map<string, int>, next: int)

  /** The loop of `_assignUIDs`: every file of `names` without a UID, in
      store order, takes the current next UID, which then goes up by one.
      Afterwards every file of the store has a UID, the UIDs already assigned
      are untouched, and the new ones lie between the old and the new counter. */
  function AssignUids(names: seq<string>, uids: map<string, int>, next: int): (r: Assignment)
    ensures forall f :: f in names ==> f in r.uids
    ensures forall f :: f in r.uids ==> f in uids || f in names
    ensures forall f :: f in uids ==> f in r.uids && r.uids[f] == uids[f]
    ensures forall f :: f in r.uids && f !in uids ==> next <= r.uids[f] < r.next
    ensures r.next >= next
  {
    if |names| == 0 then Assignment(uids, next)
    else if names[0] in uids then
      var r := AssignUids(names[1..], uids, next);
      assert forall f :: f in names ==> f == names[0] || f in names[1..];
      r
    else
      var r := AssignUids(names[1..], uids[names[0] := next], next + 1);
      assert forall f :: f in names ==> f == names[0] || f in names[1..];
      r
  }

  /** The new files get next, next+1, ... in store order, and the counter
      rises by exactly their number. */
  lemma {:induction false} AssignInStoreOrder(names: seq<string>, uids: map<string, int>, next: int)
    ensures var r := AssignUids(names, uids, next); var nn := NewNames(names, uids.Keys);
      && r.next == next + |nn|
      && forall i :: 0 <= i < |nn| ==> nn[i] in r.uids && r.uids[nn[i]] == next + i
  {
    if |names| > 0 {
      var r := AssignUids(names, uids, next);
      var nn := NewNames(names, uids.Keys);
      if names[0] in uids {
        assert r == AssignUids(names[1..], uids, next);
        assert nn == NewNames(names[1..], uids.Keys);
        AssignInStoreOrder(names[1..], uids, next);
      } else {
        var uids' := uids[names[0] := next];
        assert uids'.Keys == uids.Keys + {names[0]};
        assert r == AssignUids(names[1..], uids', next + 1);
        var rest := NewNames(names[1..], uids'.Keys);
        assert nn == [names[0]] + rest;
        AssignInStoreOrder(names[1..], uids', next + 1);
        assert r.uids[names[0]] == next;
        forall i | 0 <= i < |nn| ensures nn[i] in r.uids && r.uids[nn[i]] == next + i {
          if i > 0 {
            assert nn[i] == rest[i - 1];
          }
        }
      }
    }
  }

  /** Assignment keeps UIDs positive, below the counter and pairwise distinct. */
  lemma {:induction false} AssignPreservesInvariant(names: seq<string>, uids: map<string, int>, next: int)
    requires UidsBelowNext(uids, next) && Injective(uids)
    ensures var r := AssignUids(names, uids, next);
      UidsBelowNext(r.uids, r.next) && Injective(r.uids)
  {
    var r := AssignUids(names, uids, next);
    var nn := NewNames(names, uids.Keys);
    NewNamesSpec(names, uids.Keys);
    AssignInStoreOrder(names, uids, next);
    forall f, g | f in r.uids && g in r.uids && f != g
      ensures r.uids[f] != r.uids[g]
    {
      if f !in uids && g !in uids {
        var i :| 0 <= i < |nn| && nn[i] == f;
        var j :| 0 <= j < |nn| && nn[j] == g;
      }
    }
  }

  /** A second assignment over the same store finds nothing to do: a file's
      UID never changes between two lookups. */
  lemma {:induction false} AssignTwiceIsOnce(names: seq<string>, uids: map<string, int>, next: int)
    ensures var r := AssignUids(names, uids, next);
      AssignUids(names, r.uids, r.next) == r
  {
    var r := AssignUids(names, uids, next);
    AssignKnownIsIdentity(names, r.uids, r.next);
  }

  /** Assignment over files that all have a UID changes nothing. */
  lemma {:induction false} AssignKnownIsIdentity(names: seq<string>, uids: map<string, int>, next: int)
    requires forall f :: f in names ==> f in uids
    ensures AssignUids(names, uids, next) == Assignment(uids, next)
  {
    if |names| > 0 {
      assert names[0] in names;
      assert forall f :: f in names[1..] ==> f in names;
      AssignKnownIsIdentity(names[1..], uids, next);
    }
  }
}

=== FILE: passwords.dfy ===
/** `passwordFileToDict` (IMAPserver.py:444-459): the credentials file, read
    as the sequence of lines the file object yields, becomes a dictionary
    from UTF-8 user name to UTF-8 password. */
module Passwords {
  import opened Errors
  import opened PyStrings
  import opened Utf8

  /** `str.isspace()` for one character: the characters `str.strip()` removes. */
  predicate IsSpace(c: char) {
    var n := c as int;
    || 0x09 <= n <= 0x0D || 0x1C <= n <= 0x20 || n == 0x85 || n == 0xA0 || n == 0x1680
    || 0x2000 <= n <= 0x200A || n == 0x2028 || n == 0x2029 || n == 0x202F || n == 0x205F
    || n == 0x3000
  }

  /** The first index at or after `i` whose character is not white space
      (`|s|` when there is none): where `s.lstrip()` starts. */
  function SkipSpace(s: string, i: nat): (j: nat)
    requires i <= |s|
    ensures i <= j <= |s|
    ensures forall k :: i <= k < j ==> IsSpace(s[k])
    ensures j < |s| ==> !IsSpace(s[j])
    decreases |s| - i
  {
    if i < |s| && IsSpace(s[i]) then SkipSpace(s, i + 1) else i
  }

  /** The index just past the last character before `j`, and not before `lo`,
      that is not white space: where `s[lo..j].rstrip()` ends. */
  function BackSpace(s: string, lo: nat, j: nat): (e: nat)
    requires lo <= j <= |s|
    ensures lo <= e <= j
    ensures forall k :: e <= k < j ==> IsSpace(s[k])
    ensures e > lo ==> !IsSpace(s[e - 1])
    decreases j - lo
  {
    if j > lo && IsSpace(s[j - 1]) then BackSpace(s, lo, j - 1) else j
  }

  /** Where the stripped text starts in `s`: after the leading white space. */
  function StripStart(s: string): nat
    ensures StripStart(s) <= |s|
  {
    SkipSpace(s, 0)
  }

  /** `s.strip()`: the slice of `s` left once the leading and then the
      trailing white space is removed. Everything cut off is white space,
      and the slice neither starts nor ends with white space. */
  function Strip(s: string): (r: string)
    ensures var i := StripStart(s);
      && i + |r| <= |s| && r == s[i..i + |r|]
      && (forall k :: 0 <= k < i ==> IsSpace(s[k]))
      && (forall k :: i + |r| <= k < |s| ==> IsSpace(s[k]))
    ensures |r| > 0 ==> !IsSpace(r[0]) && !IsSpace(r[|r| - 1])
  {
    var i := SkipSpace(s, 0);
    var j := BackSpace(s, i, |s|);
    assert j > i ==> s[i..j][0] == s[i];
    s[i..j]
  }

  /** Stripping removes no colon. */
  lemma StripKeepsColons(s: string)
    ensures Count(Strip(s), ':') == Count(s, ':')
  {
    var i := StripStart(s);
    var j := i + |Strip(s)|;
    assert s == s[..i] + s[i..j] + s[j..];
    assert forall k :: 0 <= k < |s[..i]| ==> IsSpace(s[..i][k]);
    SpacesHoldNoColon(s[..i]);
    assert forall k :: 0 <= k < |s[j..]| ==> IsSpace(s[j..][k]) by {
      forall k | 0 <= k < |s[j..]| ensures IsSpace(s[j..][k]) { assert s[j..][k] == s[j + k]; }
    }
    SpacesHoldNoColon(s[j..]);
    calc {
      multiset(s);
      multiset(s[..i] + s[i..j] + s[j..]);
      multiset(s[..i] + s[i..j]) + multiset(s[j..]);
      multiset(s[..i]) + multiset(s[i..j]) + multiset(s[j..]);
    }
  }

  lemma SpacesHoldNoColon(t: string)
    requires forall k :: 0 <= k < |t| ==> IsSpace(t[k])
    ensures ':' !in t
  {
  }

  datatype Parsed = Skip | Credential(user: string, password: string)

  /** One line: without a colon it is skipped; otherwise the stripped line is
      split on ":" and unpacked into exactly two names, which fails with
      ValueError when the line holds more than one colon. */
  function ParseLine(line: string): (r: Result<Parsed>)
    ensures r.Err? <==> Count(line, ':') > 1
    ensures r.Err? ==> r.error == ValueError
    ensures r == Ok(Skip) <==> ':' !in line
    ensures r.Ok? && r.value.Credential? ==>
      Strip(line) == r.value.user + [':'] + r.value.password
      && ':' !in r.value.user && ':' !in r.value.password
  {
    if |line| == 0 || Count(line, ':') == 0 then Ok(Skip)
    else
      var parts := Split(Strip(line), ':');
      StripKeepsColons(line);
      SplitCount(Strip(line), ':');
      JoinSplit(Strip(line), ':');
      assert |parts| == Count(line, ':') + 1;
      if |parts| != 2 then Err(ValueError)
      else
        assert Join(parts, ':') == parts[0] + [':'] + parts[1];
        Ok(Credential(parts[0], parts[1]))
  }

  /** The loop over the lines, in file order, into the dictionary `acc`. */
  function ParseLines(lines: seq<string>, acc: map<seq<Byte>, seq<Byte>>): (r: Result<map<seq<Byte>, seq<Byte>>>)
    ensures r.Err? <==> exists i :: 0 <= i < |lines| && Count(lines[i], ':') > 1
    ensures r.Err? ==> r.error == ValueError
    decreases |lines|
  {
    if |lines| == 0 then Ok(acc)
    else
      assert forall i :: 1 <= i < |lines| ==> lines[i] == lines[1..][i - 1];
      match ParseLine(lines[0])
      case Err(e) => Err(e)
      case Ok(Skip) => ParseLines(lines[1..], acc)
      case Ok(Credential(u, p)) => ParseLines(lines[1..], acc[Encode(u) := Encode(p)])
  }

  /** `passwordFileToDict`: the dictionary, or the ValueError of the first
      line with more than one colon. */
  function PasswordFileToDict(lines: seq<string>): (r: Result<map<seq<Byte>, seq<Byte>>>)
    ensures r.Err? <==> exists i :: 0 <= i < |lines| && Count(lines[i], ':') > 1
    ensures r.Ok? && (forall i :: 0 <= i < |lines| ==> ':' !in lines[i]) ==> r.value == map[]
  {
    NoCredentialsFrom(lines);
    ParseLines(lines, map[])
  }

  lemma NoCredentialsFrom(lines: seq<string>)
    ensures (forall i :: 0 <= i < |lines| ==> ':' !in lines[i]) ==> ParseLines(lines, map[]) == Ok(map[])
  {
    if forall i :: 0 <= i < |lines| ==> ':' !in lines[i] {
      NoCredentials(lines, map[]);
    }
  }

  lemma {:induction false} NoCredentials(lines: seq<string>, acc: map<seq<Byte>, seq<Byte>>)
    requires forall i :: 0 <= i < |lines| ==> ':' !in lines[i]
    ensures ParseLines(lines, acc) == Ok(acc)
    decreases |lines|
  {
    if |lines| > 0 {
      assert ':' !in lines[0];
      NoCredentials(lines[1..], acc);
    }
  }

  /** Reference reading of the file: the password of the LAST well-formed
      line naming `user`, if any. */
  function LastPassword(lines: seq<string>, user: string): Option<string>
    decreases |lines|
  {
    if |lines| == 0 then None
    else match LastPassword(lines[1..], user)
      case Some(p) => Some(p)
      case None =>
        match ParseLine(lines[0])
        case Ok(Credential(u, p)) => if u == user then Some(p) else None
        case _ => None
  }

  /** The dictionary holds a user exactly when some line names them, with the
      password of the last such line; a later duplicate overrides an earlier one. */
  lemma {:induction false} LastLineWins(lines: seq<string>, acc: map<seq<Byte>, seq<Byte>>, user: string)
    requires ParseLines(lines, acc).Ok?
    ensures var m := ParseLines(lines, acc).value;
      && (Encode(user) in m <==> LastPassword(lines, user).Some? || Encode(user) in acc)
      && (LastPassword(lines, user).Some? ==> m[Encode(user)] == Encode(LastPassword(lines, user).value))
      && (LastPassword(lines, user).None? && Encode(user) in acc ==> m[Encode(user)] == acc[Encode(user)])
    decreases |lines|
  {
    if |lines| > 0 {
      match ParseLine(lines[0])
      case Ok(Skip) =>
        LastLineWins(lines[1..], acc, user);
      case Ok(Credential(u, p)) =>
        var acc' := acc[Encode(u) := Encode(p)];
        LastLineWins(lines[1..], acc', user);
        if u != user {
          assert Encode(u) != Encode(user) by {
            if Encode(u) == Encode(user) { EncodeInjective(u, user); }
          }
        }
    }
  }

  /** Every key of the dictionary is the encoding of a user some line names. */
  lemma {:induction false} KeysAreUsers(lines: seq<string>, acc: map<seq<Byte>, seq<Byte>>, k: seq<Byte>)
    requires ParseLines(lines, acc).Ok?
    requires k in ParseLines(lines, acc).value
    ensures k in acc || (Decode(k).Some? && Encode(Decode(k).value) == k && LastPassword(lines, Decode(k).value).Some?)
    decreases |lines|
  {
    if |lines| > 0 {
      var acc' := match ParseLine(lines[0]) case Ok(Credential(u, p)) => acc[Encode(u) := Encode(p)] case _ => acc;
      assert ParseLines(lines, acc) == ParseLines(lines[1..], acc');
      KeysAreUsers(lines[1..], acc', k);
      if k !in acc && k in acc' {
        var u := ParseLine(lines[0]).value.user;
        DecodeEncode(u);
      }
    }
  }
}

=== FILE: paths.dfy ===
/** Mailbox path canonicalisation of `IMAPUserAccount._getMailbox`
    (IMAPserver.py:28-34): the path is split on ".", a first component that
    reads "inbox" in any case becomes "Inbox", and the parts are joined again. */
module Paths {
  import opened PyStrings

  /** ASCII lower-casing. Python's `str.lower` is Unicode-wide, but no
      character outside ASCII lower-cases to a single one of "i", "n", "b",
      "o", "x", so the comparison with "inbox" comes out the same. */
  function LowerChar(c: char): char {
    if 'A' <= c <= 'Z' then (c as int + 32) as char else c
  }

  function Lower(s: string): (r: string)
    ensures |r| == |s|
    ensures forall i :: 0 <= i < |s| ==> r[i] == LowerChar(s[i])
  {
    seq(|s|, i requires 0 <= i < |s| => LowerChar(s[i]))
  }

  /** The test `pathParts[0].lower() == 'inbox'`. */
  predicate IsInboxName(part: string) {
    Lower(part) == "inbox"
  }

  /** The first dot-component of a path. */
  function First(path: string): string {
    Split(path, '.')[0]
  }

  /** The canonical cache key of a mailbox path. */
  function Canonical(path: string): (r: string)
    ensures Split(r, '.')[1..] == Split(path, '.')[1..]
    ensures First(r) == if IsInboxName(First(path)) then "Inbox" else First(path)
  {
    var parts := Split(path, '.');
    var first := if IsInboxName(parts[0]) then "Inbox" else parts[0];
    var canon := [first] + parts[1..];
    assert forall i :: 0 <= i < |canon| ==> '.' !in canon[i] by {
      assert '.' !in "Inbox";
    }
    SplitJoin(canon, '.');
    Join(canon, '.')
  }

  /** The first component is a prefix of the path; what follows it is
      unchanged by canonicalisation, and a path whose first component is not
      "inbox" in some case is returned as it is. */
  lemma {:induction false} CanonicalRewritesOnlyFirst(path: string)
    ensures |First(path)| <= |path| && path[..|First(path)|] == First(path)
    ensures Canonical(path) ==
      (if IsInboxName(First(path)) then "Inbox" + path[|First(path)|..] else path)
  {
    var parts := Split(path, '.');
    JoinSplit(path, '.');
    JoinHead(parts, '.');
    var first := if IsInboxName(parts[0]) then "Inbox" else parts[0];
    var canon := [first] + parts[1..];
    JoinReplaceHead(parts, first, '.');
    if !IsInboxName(parts[0]) {
      assert canon == parts;
    }
  }

  /** Canonicalising twice is canonicalising once. */
  lemma {:induction false} CanonicalIdempotent(path: string)
    ensures Canonical(Canonical(path)) == Canonical(path)
  {
    var c := Canonical(path);
    CanonicalRewritesOnlyFirst(c);
    if IsInboxName(First(path)) {
      assert First(c) == "Inbox";
      assert IsInboxName("Inbox");
      CanonicalRewritesOnlyFirst(path);
      assert c[..5] == "Inbox";
      assert "Inbox" + c[5..] == c;
    } else {
      assert First(c) == First(path);
    }
  }

  /** Two paths whose first components both read "inbox" in some case and
      which agree after that component share one canonical key, so they reach
      one cached mailbox. */
  lemma InboxSpellingsAgree(p: string, q: string)
    requires IsInboxName(First(p)) && IsInboxName(First(q))
    requires |First(p)| <= |p| && |First(q)| <= |q|
    requires p[|First(p)|..] == q[|First(q)|..]
    ensures Canonical(p) == Canonical(q)
  {
    CanonicalRewritesOnlyFirst(p);
    CanonicalRewritesOnlyFirst(q);
  }
}

=== FILE: smtp.dfy ===
/** Local SMTP delivery (smtpserver.py): the line buffer of
    `MaildirMessageWriter`, which turns the lines of one message into the
    bytes appended to the recipient's inbox, and the recipient rule of
    `LocalDelivery`. */
module Smtp {
  import opened Errors
  import opened PyStrings
  import opened Utf8

  /** A line as the SMTP protocol hands it over: bytes, or already text. */
  datatype Line = Raw(bytes: seq<Byte>) | Text(text: string)

  /** The writer's state: the buffered lines (None once `del self.lines`
      has run) and the messages appended to the inbox so far. */
  datatype Writer = Writer(lines: Option<seq<string>>, delivered: seq<seq<Byte>>)

  /** A writer as its constructor leaves it: nothing buffered, nothing delivered. */
  const NewWriter := Writer(Some([]), [])

  /** The text of a line: bytes are decoded strictly as UTF-8. */
  function LineText(line: Line): Option<string> {
    match line
    case Raw(bs) => Decode(bs)
    case Text(t) => Some(t)
  }

  /** `lineReceived` (smtpserver.py:28-31): decode, then append to the
      buffer. Undecodable bytes raise first; a deleted buffer raises next. */
  function LineReceived(w: Writer, line: Line): (r: Result<Writer>)
    ensures r.Ok? <==> LineText(line).Some? && w.lines.Some?
    ensures LineText(line).None? ==> r == Err(UnicodeDecodeError)
    ensures LineText(line).Some? && w.lines.None? ==> r == Err(AttributeError)
    ensures r.Ok? ==> (r.value.delivered == w.delivered
      && r.value.lines == Some(w.lines.value + [LineText(line).value]))
  {
    match LineText(line)
    case None => Err(UnicodeDecodeError)
    case Some(t) =>
      match w.lines
      case None => Err(AttributeError)
      case Some(ls) => Ok(w.(lines := Some(ls + [t])))
  }

  /** Several lines received one after the other, stopping at the first error. */
  function Feed(w: Writer, lines: seq<Line>): Result<Writer>
    decreases |lines|
  {
    if |lines| == 0 then Ok(w)
    else match LineReceived(w, lines[0])
      case Err(e) => Err(e)
      case Ok(w') => Feed(w', lines[1..])
  }

  /** The texts of lines that all decode, in order. */
  function Texts(lines: seq<Line>): (r: seq<string>)
    requires forall i :: 0 <= i < |lines| ==> LineText(lines[i]).Some?
    ensures |r| == |lines|
    ensures forall i :: 0 <= i < |lines| ==> r[i] == LineText(lines[i]).value
    decreases |lines|
  {
    if |lines| == 0 then []
    else
      assert forall i :: 0 <= i < |lines[1..]| ==> lines[1..][i] == lines[i + 1];
      [LineText(lines[0]).value] + Texts(lines[1..])
  }

  /** A feed fails exactly when some line does not decode, or when there
      is a line to buffer and the buffer has been deleted. */
  lemma {:induction false} FeedFails(w: Writer, lines: seq<Line>)
    ensures Feed(w, lines).Err? <==>
      (|lines| > 0 && w.lines.None?) || exists i :: 0 <= i < |lines| && LineText(lines[i]).None?
    decreases |lines|
  {
    if |lines| > 0 {
      assert forall i :: 1 <= i < |lines| ==> lines[i] == lines[1..][i - 1];
      match LineReceived(w, lines[0])
      case Err(e) =>
      case Ok(w') =>
        FeedFails(w', lines[1..]);
        if exists i :: 0 <= i < |lines| && LineText(lines[i]).None? {
          var i :| 0 <= i < |lines| && LineText(lines[i]).None?;
          assert lines[1..][i - 1] == lines[i];
        }
    }
  }

  /** The texts of a nonempty run of decodable lines: the first one's, then the rest's. */
  lemma TextsCons(lines: seq<Line>)
    requires |lines| > 0
    requires forall i :: 0 <= i < |lines| ==> LineText(lines[i]).Some?
    ensures forall i :: 0 <= i < |lines[1..]| ==> LineText(lines[1..][i]).Some?
    ensures Texts(lines) == [LineText(lines[0]).value] + Texts(lines[1..])
  {
    assert forall i :: 0 <= i < |lines[1..]| ==> lines[1..][i] == lines[i + 1];
  }

  /** Feeding a decodable line to a live buffer appends its text and goes on with the rest. */
  lemma FeedStep(buf: seq<string>, d: seq<seq<Byte>>, lines: seq<Line>)
    requires |lines| > 0 && LineText(lines[0]).Some?
    ensures Feed(Writer(Some(buf), d), lines) == Feed(Writer(Some(buf + [LineText(lines[0]).value]), d), lines[1..])
  {
  }

  /** Received lines are buffered in arrival order, and only buffered. */
  lemma {:induction false} FeedBuffersInOrder(buf: seq<string>, d: seq<seq<Byte>>, lines: seq<Line>)
    requires forall i :: 0 <= i < |lines| ==> LineText(lines[i]).Some?
    ensures Feed(Writer(Some(buf), d), lines) == Ok(Writer(Some(buf + Texts(lines)), d))
    decreases |lines|
  {
    if |lines| == 0 {
      assert buf + Texts(lines) == buf;
    } else {
      var t := LineText(lines[0]).value;
      FeedStep(buf, d, lines);
      TextsCons(lines);
      FeedBuffersInOrder(buf + [t], d, lines[1..]);
      AppendAssoc(buf, [t], Texts(lines[1..]));
    }
  }

  /** The stored text of a message: every line followed by a newline. */
  function Terminated(lines: seq<string>): string {
    if |lines| == 0 then "" else lines[0] + "\n" + Terminated(lines[1..])
  }

  /** `'\n'.join(lines + [''])` is each line with a newline after it. */
  lemma {:induction false} JoinWithEmptyLast(lines: seq<string>)
    ensures Join(lines + [""], '\n') == Terminated(lines)
  {
    if |lines| > 0 {
      assert (lines + [""])[1..] == lines[1..] + [""];
      JoinWithEmptyLast(lines[1..]);
    }
  }

  /** The stored text ends in a newline as soon as one line was received,
      and starts with the first line. */
  lemma {:induction false} TerminatedShape(lines: seq<string>)
    requires |lines| > 0
    ensures |Terminated(lines)| > 0 && Terminated(lines)[|Terminated(lines)| - 1] == '\n'
    ensures |lines[0]| < |Terminated(lines)| && Terminated(lines)[..|lines[0]| + 1] == lines[0] + "\n"
  {
    if |lines| > 1 {
      TerminatedShape(lines[1..]);
    }
  }

  /** `eomReceived` (smtpserver.py:33-37): an empty line is appended to the
      buffer, which stays in place, and the buffer joined by newlines is
      appended to the inbox as UTF-8. A deleted buffer raises. */
  function EomReceived(w: Writer): (r: Result<Writer>)
    ensures r.Err? <==> w.lines.None?
    ensures r.Err? ==> r.error == AttributeError
    ensures r.Ok? ==> (r.value.lines == Some(w.lines.value + [""])
      && r.value.delivered == w.delivered + [Encode(Terminated(w.lines.value))])
  {
    match w.lines
    case None => Err(AttributeError)
    case Some(ls) =>
      var data := Join(ls + [""], '\n');
      JoinWithEmptyLast(ls);
      Ok(Writer(Some(ls + [""]), w.delivered + [Encode(data)]))
  }

  /** A whole message: the lines received by a fresh writer, then the end of
      the message. The one delivered message decodes to the lines in arrival
      order, each followed by a newline. */
  lemma DeliverMessage(lines: seq<Line>)
    requires forall i :: 0 <= i < |lines| ==> LineText(lines[i]).Some?
    ensures var w := Feed(NewWriter, lines);
      && w.Ok? && EomReceived(w.value).Ok?
      && |EomReceived(w.value).value.delivered| == 1
      && Decode(EomReceived(w.value).value.delivered[0]) == Some(Terminated(Texts(lines)))
  {
    FeedBuffersInOrder([], [], lines);
    assert [] + Texts(lines) == Texts(lines);
    DecodeEncode(Terminated(Texts(lines)));
  }

  /** `connectionLost` (smtpserver.py:39-41): the buffer is deleted and
      nothing is appended to the inbox; deleting it twice raises. */
  function ConnectionLost(w: Writer): (r: Result<Writer>)
    ensures r.Err? <==> w.lines.None?
    ensures r.Err? ==> r.error == AttributeError
    ensures r.Ok? ==> r.value.lines.None? && r.value.delivered == w.delivered
  {
    if w.lines.None? then Err(AttributeError) else Ok(w.(lines := None))
  }

  /** After a lost connection no line is buffered and no message is stored. */
  lemma LostConnectionStoresNothing(w: Writer, line: Line)
    requires ConnectionLost(w).Ok?
    ensures var l := ConnectionLost(w).value;
      LineReceived(l, line).Err? && EomReceived(l) == Err(AttributeError)
      && l.delivered == w.delivered
  {
  }

  // ---- recipient acceptance ----

  datatype Address = Address(local: seq<Byte>, domain: seq<Byte>)
  datatype Helo = Helo(host: seq<Byte>, ip: seq<Byte>)

  /** `LocalDelivery`: the domains mail is accepted for (the comma-separated
      command-line list) and the client last seen by `validateFrom`. */
  datatype Delivery = Delivery(validDomains: seq<string>, client: Option<Helo>)

  /** `validateFrom` (smtpserver.py:67-72): records the client and accepts
      any sender, returning its address unchanged. */
  function ValidateFrom(d: Delivery, helo: Helo, origin: Address): (r: (Delivery, Address))
    ensures r.1 == origin
    ensures r.0.client == Some(helo) && r.0.validDomains == d.validDomains
  {
    (d.(client := Some(helo)), origin)
  }

  /** `validateTo` (smtpserver.py:74-87): a recipient whose domain, decoded
      as UTF-8, is one of the valid domains is accepted (the code returns a
      factory for a writer delivering to it); any other raises SMTPBadRcpt,
      and a domain that does not decode raises before the test. */
  function ValidateTo(d: Delivery, user: Address): (r: Result<Address>)
    ensures r.Ok? <==> Decode(user.domain).Some? && Decode(user.domain).value in d.validDomains
    ensures r.Ok? ==> r.value == user
    ensures r.Err? ==> r.error == (if Decode(user.domain).None? then UnicodeDecodeError else BadRecipient)
  {
    match Decode(user.domain)
    case None => Err(UnicodeDecodeError)
    case Some(dom) => if dom in d.validDomains then Ok(user) else Err(BadRecipient)
  }

  /** For a domain written as text, acceptance is exactly membership in the
      list of valid domains; the sender check has no say in it. */
  lemma AcceptsExactlyValidDomains(d: Delivery, local: seq<Byte>, domain: string, helo: Helo, origin: Address)
    ensures ValidateTo(d, Address(local, Encode(domain))).Ok? <==> domain in d.validDomains
    ensures ValidateTo(ValidateFrom(d, helo, origin).0, Address(local, Encode(domain)))
      == ValidateTo(d, Address(local, Encode(domain)))
  {
    DecodeEncode(domain);
  }
}

=== FILE: sorting.dfy ===
/** Ascending sort of integers (Python's `list.sort()` on UIDs) and
    `list.index`, the two list operations UID resolution relies on. */
module Sorting {

  predicate Sorted(s: seq<int>) {
    forall i, j :: 0 <= i < j < |s| ==> s[i] <= s[j]
  }

  /** Inserts `x` into a sorted sequence before the first larger element. */
  function Insert(x: int, s: seq<int>): (r: seq<int>)
    requires Sorted(s)
    ensures Sorted(r)
    ensures multiset(r) == multiset(s) + multiset{x}
  {
    if |s| == 0 then [x]
    else if x <= s[0] then [x] + s
    else
      var rest := Insert(x, s[1..]);
      assert s == [s[0]] + s[1..];
      assert forall k :: 0 <= k < |rest| ==> s[0] <= rest[k] by {
        forall k | 0 <= k < |rest| ensures s[0] <= rest[k] {
          assert rest[k] in multiset(rest);
          assert rest[k] in multiset(s[1..]) + multiset{x};
          if rest[k] in multiset(s[1..]) {
            var m :| 0 <= m < |s[1..]| && s[1..][m] == rest[k];
            assert s[m + 1] == rest[k];
          }
        }
      }
      [s[0]] + rest
  }

  /** The ascending rearrangement of `s`. */
  function Sort(s: seq<int>): (r: seq<int>)
    ensures Sorted(r)
    ensures multiset(r) == multiset(s)
    ensures |r| == |s|
  {
    if |s| == 0 then []
    else
      assert s == [s[0]] + s[1..];
      Insert(s[0], Sort(s[1..]))
  }

  /** `s.index(x)`: the position of the first occurrence of `x`. */
  function IndexOf(s: seq<int>, x: int): (i: nat)
    requires x in s
    ensures i < |s| && s[i] == x
    ensures forall j :: 0 <= j < i ==> s[j] != x
  {
    if s[0] == x then 0 else 1 + IndexOf(s[1..], x)
  }
}

=== FILE: strings.dfy ===
/** Python's `str.split(sep)` and `sep.join(parts)` for a one-character
    separator, as the mailbox path code (on "."), the password file parser
    (on ":") and the SMTP line buffer (joining on "\n") use them. */
module PyStrings {

  /** `s.split(sep)`: always at least one part, none containing `sep`. */
  function Split(s: string, sep: char): (parts: seq<string>)
    ensures |parts| >= 1
    ensures forall i :: 0 <= i < |parts| ==> sep !in parts[i]
  {
    if |s| == 0 then [""]
    else
      var rest := Split(s[1..], sep);
      if s[0] == sep then [""] + rest
      else [[s[0]] + rest[0]] + rest[1..]
  }

  /** `sep.join(parts)`. */
  function Join(parts: seq<string>, sep: char): string
    requires |parts| >= 1
  {
    if |parts| == 1 then parts[0] else parts[0] + [sep] + Join(parts[1..], sep)
  }

  /** The number of occurrences of `c`, `s.count(c)`. */
  function Count(s: string, c: char): nat {
    multiset(s)[c]
  }

  /** Joining the parts of a split gives the text back. */
  lemma {:induction false} JoinSplit(s: string, sep: char)
    ensures Join(Split(s, sep), sep) == s
  {
    if |s| > 0 {
      var rest := Split(s[1..], sep);
      JoinSplit(s[1..], sep);
      if s[0] == sep {
        assert Split(s, sep) == [""] + rest;
        assert Join(Split(s, sep), sep) == "" + [sep] + Join(rest, sep);
      } else {
        JoinCons(s[0], rest, sep);
      }
    }
  }

  /** Prepending a character to the first part prepends it to the joined text. */
  lemma {:induction false} JoinCons(c: char, parts: seq<string>, sep: char)
    requires |parts| >= 1
    ensures Join([[c] + parts[0]] + parts[1..], sep) == [c] + Join(parts, sep)
  {
    var ps := [[c] + parts[0]] + parts[1..];
    if |parts| > 1 {
      assert ps[1..] == parts[1..];
    }
  }

  /** Splitting a join of separator-free parts gives the parts back. */
  lemma {:induction false} SplitJoin(parts: seq<string>, sep: char)
    requires |parts| >= 1
    requires forall i :: 0 <= i < |parts| ==> sep !in parts[i]
    ensures Split(Join(parts, sep), sep) == parts
  {
    if |parts| == 1 {
      SplitNoSep(parts[0], sep);
    } else {
      SplitJoin(parts[1..], sep);
      SplitPrefix(parts[0], Join(parts[1..], sep), sep);
      assert [parts[0]] + parts[1..] == parts;
    }
  }

  lemma {:induction false} SplitNoSep(s: string, sep: char)
    requires sep !in s
    ensures Split(s, sep) == [s]
  {
    if |s| > 0 {
      assert s[0] in s;
      assert forall c :: c in s[1..] ==> c in s;
      SplitNoSep(s[1..], sep);
      assert [s[0]] + s[1..] == s;
    }
  }

  /** Splitting `w + sep + t` for a separator-free `w` yields `w` followed by the parts of `t`. */
  lemma {:induction false} SplitPrefix(w: string, t: string, sep: char)
    requires sep !in w
    ensures Split(w + [sep] + t, sep) == [w] + Split(t, sep)
    decreases |w|
  {
    var s := w + [sep] + t;
    if |w| == 0 {
      assert s[1..] == t;
    } else {
      assert s[1..] == w[1..] + [sep] + t;
      SplitPrefix(w[1..], t, sep);
      assert [w[0]] + w[1..] == w;
    }
  }

  /** A split yields one part more than there are separators. */
  lemma {:induction false} SplitCount(s: string, sep: char)
    ensures |Split(s, sep)| == Count(s, sep) + 1
  {
    if |s| > 0 {
      SplitCount(s[1..], sep);
      assert s == [s[0]] + s[1..];
      assert multiset(s) == multiset{s[0]} + multiset(s[1..]);
    }
  }

  /** The first part is a prefix of the joined text. */
  lemma {:induction false} JoinHead(parts: seq<string>, sep: char)
    requires |parts| >= 1
    ensures |parts[0]| <= |Join(parts, sep)| && Join(parts, sep)[..|parts[0]|] == parts[0]
  {
    if |parts| > 1 {
      assert Join(parts, sep) == parts[0] + ([sep] + Join(parts[1..], sep));
    }
  }

  /** Replacing the first part replaces the corresponding prefix of the join. */
  lemma {:induction false} JoinReplaceHead(parts: seq<string>, w: string, sep: char)
    requires |parts| >= 1
    ensures |parts[0]| <= |Join(parts, sep)|
    ensures Join([w] + parts[1..], sep) == w + Join(parts, sep)[|parts[0]|..]
  {
    JoinHead(parts, sep);
    var ps := [w] + parts[1..];
    if |parts| > 1 {
      assert ps[1..] == parts[1..];
      var tail := [sep] + Join(parts[1..], sep);
      assert Join(parts, sep) == parts[0] + tail;
      assert Join(parts, sep)[|parts[0]|..] == tail;
    }
  }

  /** Concatenation is associative; stated once so that proofs in a large
      context need not rediscover it. */
  lemma AppendAssoc<T>(a: seq<T>, b: seq<T>, c: seq<T>)
    ensures (a + b) + c == a + (b + c)
  {
  }
}

=== FILE: utf8.dfy ===
/** UTF-8 (RFC 3629), as Python's `str.encode("utf-8")` / `bytes(s, "utf-8")`
    and the strict `bytes.decode("utf-8")` use it. Decoding refuses
    what section 3 of RFC 3629 forbids: bad lead or continuation bytes,
    overlong forms, surrogates and values above U+10FFFF. */
module Utf8 {
  import opened Errors

  type Byte = b: int | 0 <= b < 256

  predicate IsScalar(cp: int) {
    0 <= cp < 0xD800 || 0xE000 <= cp < 0x11_0000
  }

  /** The bytes of one character: one to four, by the size of its code point. */
  function EncodeChar(c: char): (r: seq<Byte>)
    ensures 1 <= |r| <= 4
  {
    // the code point in base 0x40, lowest digit first
    var cp := c as int;
    var q1 := cp / 0x40;
    var q2 := q1 / 0x40;
    if cp < 0x80 then [cp]
    else if cp < 0x800 then [0xC0 + q1, 0x80 + cp % 0x40]
    else if cp < 0x1_0000 then [0xE0 + q2, 0x80 + q1 % 0x40, 0x80 + cp % 0x40]
    else [0xF0 + q2 / 0x40, 0x80 + q2 % 0x40, 0x80 + q1 % 0x40, 0x80 + cp % 0x40]
  }

  function Encode(s: string): (r: seq<Byte>)
    ensures |s| <= |r| <= 4 * |s|
  {
    if |s| == 0 then [] else EncodeChar(s[0]) + Encode(s[1..])
  }

  predicate IsCont(b: Byte) {
    0x80 <= b < 0xC0
  }

  /** The first character of `bs` and how many bytes it takes, when `bs`
      starts with a well-formed sequence. */
  function DecodeFirst(bs: seq<Byte>): (r: Option<(char, nat)>)
    requires |bs| > 0
    ensures r.Some? ==> 1 <= r.value.1 <= |bs|
  {
    var b0: int := bs[0];
    if b0 < 0x80 then Some((b0 as char, 1))
    else if 0xC2 <= b0 < 0xE0 then
      if |bs| >= 2 && IsCont(bs[1]) then
        Some((((b0 - 0xC0) * 0x40 + (bs[1] as int - 0x80)) as char, 2))
      else None
    else if 0xE0 <= b0 < 0xF0 then
      if |bs| >= 3 && IsCont(bs[1]) && IsCont(bs[2]) then
        var cp := (b0 - 0xE0) * 0x1000 + (bs[1] as int - 0x80) * 0x40 + (bs[2] as int - 0x80);
        if 0x800 <= cp && IsScalar(cp) then Some((cp as char, 3)) else None
      else None
    else if 0xF0 <= b0 < 0xF5 then
      if |bs| >= 4 && IsCont(bs[1]) && IsCont(bs[2]) && IsCont(bs[3]) then
        var cp := (b0 - 0xF0) * 0x4_0000 + (bs[1] as int - 0x80) * 0x1000 + (bs[2] as int - 0x80) * 0x40 + (bs[3] as int - 0x80);
        if 0x1_0000 <= cp < 0x11_0000 then Some((cp as char, 4)) else None
      else None
    else None
  }

  /** Strict decoding: None when any part of `bs` is not well-formed UTF-8. */
  function Decode(bs: seq<Byte>): Option<string>
    decreases |bs|
  {
    if |bs| == 0 then Some("")
    else match DecodeFirst(bs)
      case None => None
      case Some((c, n)) =>
        match Decode(bs[n..])
        case None => None
        case Some(rest) => Some([c] + rest)
  }

  /** The decoder reads back the first character of an encoding, whatever follows. */
  lemma DecodeEncodedChar(c: char, rest: seq<Byte>)
    ensures DecodeFirst(EncodeChar(c) + rest) == Some((c, |EncodeChar(c)|))
  {
    var cp := c as int;
    if cp < 0x80 {
    } else if cp < 0x800 {
      DecodeTwo(c, rest);
    } else if cp < 0x1_0000 {
      DecodeThree(c, rest);
    } else {
      DecodeFour(c, rest);
    }
  }

  lemma DecodeTwo(c: char, rest: seq<Byte>)
    requires 0x80 <= c as int < 0x800
    ensures DecodeFirst(EncodeChar(c) + rest) == Some((c, 2))
  {
    var cp := c as int;
    var bs := EncodeChar(c) + rest;
    var d0, q1 := cp % 0x40, cp / 0x40;
    assert cp == q1 * 0x40 + d0;
    assert bs[0] == 0xC0 + q1 && bs[1] == 0x80 + d0;
  }

  lemma DecodeThree(c: char, rest: seq<Byte>)
    requires 0x800 <= c as int < 0x1_0000
    ensures DecodeFirst(EncodeChar(c) + rest) == Some((c, 3))
  {
    var cp := c as int;
    var bs := EncodeChar(c) + rest;
    var d0, q1 := cp % 0x40, cp / 0x40;
    var d1, q2 := q1 % 0x40, q1 / 0x40;
    assert cp == q1 * 0x40 + d0;
    assert q1 == q2 * 0x40 + d1;
    assert bs[0] == 0xE0 + q2 && bs[1] == 0x80 + d1 && bs[2] == 0x80 + d0;
    assert q2 * 0x1000 + d1 * 0x40 + d0 == cp;
  }

  lemma DecodeFour(c: char, rest: seq<Byte>)
    requires 0x1_0000 <= c as int
    ensures DecodeFirst(EncodeChar(c) + rest) == Some((c, 4))
  {
    var cp := c as int;
    var bs := EncodeChar(c) + rest;
    var d0, q1 := cp % 0x40, cp / 0x40;
    var d1, q2 := q1 % 0x40, q1 / 0x40;
    var d2, d3 := q2 % 0x40, q2 / 0x40;
    assert cp == q1 * 0x40 + d0;
    assert q1 == q2 * 0x40 + d1;
    assert q2 == d3 * 0x40 + d2;
    assert bs[0] == 0xF0 + d3 && bs[1] == 0x80 + d2 && bs[2] == 0x80 + d1 && bs[3] == 0x80 + d0;
    assert d3 * 0x4_0000 + d2 * 0x1000 + d1 * 0x40 + d0 == cp;
  }

  /** Decoding undoes encoding: `s.encode().decode() == s`. */
  lemma {:induction false} DecodeEncode(s: string)
    ensures Decode(Encode(s)) == Some(s)
  {
    if |s| > 0 {
      var e := EncodeChar(s[0]);
      var bs := Encode(s);
      DecodeEncodedChar(s[0], Encode(s[1..]));
      assert bs[|e|..] == Encode(s[1..]);
      DecodeEncode(s[1..]);
      assert [s[0]] + s[1..] == s;
    }
  }

  /** Encoding a concatenation concatenates the encodings. */
  lemma {:induction false} EncodeAppend(s: string, t: string)
    ensures Encode(s + t) == Encode(s) + Encode(t)
  {
    if |s| > 0 {
      assert (s + t)[0] == s[0] && (s + t)[1..] == s[1..] + t;
      EncodeAppend(s[1..], t);
    } else {
      assert s + t == t;
    }
  }

  /** Different texts have different encodings. */
  lemma EncodeInjective(s: string, t: string)
    requires Encode(s) == Encode(t)
    ensures s == t
  {
    DecodeEncode(s);
    DecodeEncode(t);
  }
}
